=== FILE: README.md ===
# JStree: a verified model of an incremental join/split tree builder

`JStree` (in `jstree.py`) builds a join (or split) tree over the cells of an
N x M image. Cell (i, j) has the linear id `i + N*j`. The caller supplies a
permutation of the ids, typically the cells sorted by intensity. `make`
inserts the cells one at a time in that order. For each new cell `v`,
`bfalg_add` does the following:

1. It looks up the 8-neighbours of `v` through a table of nine boundary
   classes, one offset list per class.
2. It collects, with `find_adj`, the distinct union-find roots of the
   neighbours already inserted.
3. It flags `v` as a leaf when there are none, and as a bifurcation when
   there are two or more.
4. It merges those components under the root whose component is largest.
5. It records a merge-tree edge from each absorbed component's
   representative to `v`. The representative is the component's most
   recently inserted cell.

Two parent arrays are kept apart:
- the union-find parent `_par_compressed_JSUFD`, searched with path
  splitting;
- the merge-tree parent `_par`.

The root-to-representative map joins the two.

The model is functional. A `Tree` record holds the builder's fields as
length-N*M sequences, and every operation returns a new record. Root finding
terminates on a ghost depth measure that strictly decreases from a cell to
its union-find parent. After every merge the new depth is the old one
shifted above the winner.

Modules:
- `Grid` (`grid.dfy`): id encoding, adjacency, and the boundary-class and
  offset tables.
- `UnionFind` (`union_find.dfy`): parent arrays, `RootOf`, path splitting,
  and joining roots.
- `SeqUtil` (`seq_util.dfy`): first-occurrence deduplication, Python's
  first-maximum `max`, and sums and cardinalities.
- `JsTree` (`js_tree.dfy`): the state, membership, root finding, `find_adj`,
  merging and one insertion.
- `JsWalk` (`js_walk.dfy`): walks through 8-adjacent cells of the tree, the
  graph reading of "connected".
- `JsStep` (`js_step.dfy`): one insertion described field by field, and the
  meaning of the leaf and bifurcation flags.
- `JsInvariant` (`js_invariant.dfy`): the invariant between insertions and
  its preservation.
- `JsBuild` (`js_build.dfy`): the constructor, `initaillize`, `make`, the
  completed build, and the getters.

## Model

| member | source | states |
|---|---|---|
| Grid.CoordRoundTrip | jstree.py:285-292 | For 0 <= i < N and 0 <= j < M, the id `N*j + i` lies in [0, N*M) and `_to_ij_notation` maps it back to (i, j), with `int(v / N)` modelled as truncating division. |
| Grid.IndexRoundTrip | jstree.py:285-292 | Every id in [0, N*M) has a row in [0, N) and a column in [0, M), and encoding them gives the id back. |
| Grid.NeighbourTable | jstree.py:144-164 | For N >= 2, no offset of a cell's boundary class is zero. Every offset that stays in [0, N*M) lands on a proper 8-neighbour, so there is no wrap-around between columns. Every proper 8-neighbour is reached by some offset. |
| JsBuild.New | jstree.py:141-165 | The constructor's writes (all 4, then corners, top and bottom edges, left and right edges) leave every cell with the boundary class of its row and column. The offset table is the fixed one. The state starts empty, with length 0, no members and unbuilt, and every getter raises NotImplementedError. |
| JsBuild.Initialize | jstree.py:107-139 | Resetting clears the built flag, sets `_next`, the length and the component count to 0, and empties membership. Every cell's leaf, bifurcation and root flags are false, its size and representative are 0, and both parent arrays hold the sentinel N*M. The dimensions, the tables and the insertion order are kept. |
| JsInvariant.Membership | jstree.py:217-236 | In every state reachable by insertions, `x in tree` holds exactly for the first `_next` cells of the order. It is false for every id outside [0, N*M). `len` equals the number of members. |
| JsTree.Find | jstree.py:246-283 | A non-member gets the sentinel N*M and the state is unchanged. A member gets the root it reaches by following parents, which is flagged as a root and is its own parent. Only the union-find array changes, and the rewrite keeps every cell's root. |
| UnionFind.Split | jstree.py:268-283 | The path-splitting loop ends at the root of its start cell. It keeps the array ranked, keeps the linked cells and the roots, and leaves unchanged the root reached from every linked cell. |
| UnionFind.SplitAtKeepsRoot | jstree.py:273-274 | One grandparent rewrite changes no cell's root. |
| JsTree.FindAdj | jstree.py:294-303 | `find_adj` returns the roots of the contained neighbour candidates, each kept at its first occurrence in the fixed offset order. Root finding's rewrites stay within the same forest. |
| SeqUtil.DistinctProps | jstree.py:301-302 | The append-if-not-present list is duplicate-free and holds exactly the values seen. |
| JsStep.StepRootsSpec | jstree.py:294-303 | The roots found for the inserted cell are duplicate-free and were roots before the step. As a set, they are exactly the components holding a contained proper 8-neighbour of the cell. |
| JsStep.StepClassify | jstree.py:327-330 | The new cell is flagged a leaf iff none of its 8-neighbours is in the tree. It is flagged a bifurcation iff two of its 8-neighbours in the tree have different union-find roots. No other cell's flags change. |
| JsInvariant.StepBifurcation | jstree.py:327-330 | In every state reachable by insertions, the new cell is flagged a bifurcation iff two of its 8-neighbours in the tree are joined by no walk of 8-adjacent cells of the tree. |
| JsInvariant.SplitsIffDisconnects | jstree.py:71-80 | Between insertions, two 8-neighbours of a cell have different union-find roots iff no walk through the tree joins them. |
| JsInvariant.SameRootIffReach | jstree.py:58-62 | Between insertions, two cells of the tree have the same union-find root iff some walk of 8-adjacent cells of the tree joins them. Components are thus exactly the connected parts of the tree. |
| SeqUtil.FirstMaxIndex | jstree.py:343 | Python's `max` with a key returns an entry whose key is largest, and every earlier entry's key is strictly smaller. |
| JsTree.Winner | jstree.py:343 | The winner is one of the adjacent roots. Its component size, read at its representative, is maximal, and every earlier root's size is strictly smaller. |
| JsTree.MergeRoots | jstree.py:344-354 | Over the adjacent roots, every representative gets the new cell as merge-tree parent, every root is pointed at the winner, and only the winner keeps its root flag. The component count drops by the number of roots, and the sizes are summed. |
| JsTree.Absorb | jstree.py:333-357 | With no adjacent root, the new cell becomes a root representing itself with size 1. Otherwise the new cell also points at the winner, becomes the winner's representative, and gets size 1 plus the merged sizes. Nothing else changes. |
| JsTree.InsertReady | jstree.py:318-325 | After the new cell is made its own parent in both arrays, it is a linked root, and every cell inserted earlier still reaches the same root. |
| JsTree.Insert | jstree.py:318-325 | The next cell of the order becomes its own parent in both arrays, `_next`, the element count and the component count rise by one, and the members are the old ones plus that cell. |
| JsTree.Step | jstree.py:305-357 | Once every cell is inserted the call leaves the state unchanged. Otherwise `_next` and the element count rise by one, the dimensions and the order are kept, the arrays keep length N*M, and the inserted cell is a member. |
| JsStep.StepFields | jstree.py:315-357 | One insertion raises `_next` and the element count by one and changes the component count by 1 - k, for k adjacent roots. It sets the new cell's leaf flag to k == 0 and its bifurcation flag to k > 1, moves the winner's representative to the new cell, and gives it size 1 plus the merged sizes. |
| JsStep.StepParents | jstree.py:319-348 | Exactly the new cell and the representatives of the adjacent components get the new cell as merge-tree parent. The latest-cell reading of a representative is `JsInvariant.RepIsLatest`. |
| JsInvariant.RepIsLatest | jstree.py:339-355 | Between insertions, the representative recorded for each union-find root is a cell of its component. No cell of the component comes later in the insertion order, so the representative is the component's most recently inserted cell. |
| JsStep.StepRootFlags | jstree.py:338-354 | Of the adjacent roots and the new cell, only the winner is flagged as a root afterwards. |
| JsStep.StepRootOf | jstree.py:350-355 | After the step, the new cell and every cell of an adjacent component reach the winner. Every other cell keeps its root. |
| JsStep.StepForest | jstree.py:350-355 | The step links exactly the new cell besides the cells linked before. It keeps the parent array ranked under the next depth. The union-find roots left are the winner and the old roots not merged. |
| JsInvariant.CountAfter | jstree.py:324-349 | Between steps, the component count equals the number of inserted cells that are their own merge-tree parent. |
| JsInvariant.StepValid | jstree.py:305-357 | Every call of `bfalg_add` preserves the invariant, including the call that does nothing once every cell is inserted. The invariant covers members as an order prefix, root flags, representatives as merge-tree roots of their component, merge-tree edges within a component, and adjacent members sharing a component. It also covers each component's size at its representative as its number of cells, a walk from every member to its root, every merge-tree parent later in the order than its child, the component count, leaf history, and the latest cell as a merge-tree root. |
| JsInvariant.SizeAfter | jstree.py:334-356 | After a step, the size stored at each root's representative is the number of cells of its component. The merged component counts the new cell plus the cells of every absorbed one, and other components keep their cells. |
| JsInvariant.WinnerIsLargest | jstree.py:343 | Between insertions, the root that wins a merge is an adjacent root whose component has the most cells, and every earlier adjacent root's component has strictly fewer. With no adjacent root, the new cell is its own root. |
| JsInvariant.ParentLaterAfter | jstree.py:319-347 | Every merge-tree parent a step sets is the new cell, the latest in the order, so every cell's parent stays later in the order than the cell. |
| JsInvariant.RootReachAfter | jstree.py:344-355 | After a step, every member is joined to its union-find root by a walk of 8-adjacent cells of the tree. |
| JsBuild.Run | jstree.py:194-195 | k calls of `bfalg_add` keep the invariant and advance `_next` by k, stopping at N*M. |
| JsBuild.Make | jstree.py:183-197 | `make` raises ValueError exactly when the input is not a permutation of [0, N*M); then only the stored order changes. Otherwise the result is a completed build of that order. |
| JsBuild.Build | jstree.py:190-197 | Inserting all N*M cells from a reset state and setting the built flag gives a completed build: every cell is a member with a cell as parent, the length is N*M, there is one component, and the leaf flags follow the order. |
| JsBuild.Connected | jstree.py:32-39 | After the last insertion, every cell is in the component of cell 0. |
| JsBuild.SingleRoot | jstree.py:32-39 | After the last insertion, exactly one cell is its own merge-tree parent (the last cell of the order), and the component count is 1. |
| JsBuild.MergeTree | jstree.py:37-39 | A completed build is a tree, connected and without cycles. From every cell, N*M - 1 merge-tree parent steps reach the last cell of the order, and no other cell returns to itself after any positive number of steps. |
| JsBuild.MakeForgetsHistory | jstree.py:168-191 | A successful `make` gives the same state whatever was built before, as long as the grid is the same. |
| JsBuild.GettersAfterMake | jstree.py:200-213 | After a successful `make`, all getters answer with arrays of length N*M. In the tree data every parent is a cell, and only the last cell of the order is its own parent. The leaf information marks exactly the cells with no earlier 8-neighbour. |

## Left out

- The `tqdm` progress wrapper around the insertion loop and the numpy allocation and copying. The arrays are sequences, and a getter returns the sequence itself. An immutable sequence cannot be altered through the returned value, which is what the copy guarantees.
- The `max_n_comp` statistic. It is not updated on the leaf path, so it is not a true peak.
- `_n_leaf`, which is never updated.
- `_definitely_contains`, an unused recursive debugging helper.
- Grids with N = 1. Two offsets of the table become 0 there, so the new cell finds itself and root finding's final assertion fails. `JsBuild.New` requires N >= 2 and M >= 1, and so does every operation on a shaped state.
- JsBuild.New: for N < 1 or M < 1 the constructor raises, because numpy rejects a negative size or the first corner write indexes an empty array. The model requires N >= 2 and M >= 1 and does not model that error.
- The final assertion of `_find_root_of_JSUFD` is a precondition of `JsTree.Find`. It is proved to hold at every call made by an insertion.
- The state left by a `make` that stops part way. Insertions cannot fail for N >= 2, so this needs an exception from outside.
- Aliasing between the caller's array and the stored order. The order is an immutable sequence.
- Python `set` equality over arbitrary objects. The order is a sequence of integers.
- The adjacency formula in the class comment. It mixes N and M, so the model uses the encoding of `_to_index_notation` and `_to_ij_notation`.
- The class comment's claim that every merge-tree edge joins adjacent cells. It does not hold: a component's representative need not be adjacent to the new cell.
- Grid.CoordRoundTrip: `int(v / N)` is float division, because of `from __future__ import division`. It agrees with truncating division only while v is below 2^53. Ids are far below that for any image. `_to_ij_notation` has no caller in the module.
- JsTree.Len: `len` returns the element count, and its meaning is stated by `JsInvariant.Membership`.
- JsTree.IsIllegal: the range test on its own carries no further promise. What it means for `x in tree` is stated by `JsInvariant.Membership`: ids outside [0, N*M) are never members.
- JsTree.Contains: its meaning is stated by `JsInvariant.Membership`. Between insertions, `x in tree` holds exactly for the first `_next` cells of the order.
- JsBuild.GetBifurcationPoint: its own contract only says when it raises NotImplementedError. The content of a completed build's bifurcation array is bounded by `JsBuild.GettersAfterMake` (length N*M) and characterised per insertion by `JsInvariant.StepBifurcation`.
- JsBuild.GetLeafInformation: its own contract only says when it raises NotImplementedError. What it answers after a successful `make` is stated by `JsBuild.GettersAfterMake`.
- JsBuild.GetJStreeData: its own contract only says when it raises NotImplementedError. What it answers after a successful `make` is stated by `JsBuild.GettersAfterMake`.
- JsBuild.Build: the bifurcation flag is characterised per insertion (`JsStep.StepClassify`, in terms of the components before that insertion). It is not restated for the completed build in terms of the order, because that needs the component structure of every prefix of the order.

=== FILE: grid.dfy ===
/**
 Cell ids of an N x M image grid and its 8-neighbourhood.

 Cell (i, j) -- row i in [0, N), column j in [0, M) -- has the linear id
 i + N*j.  Every cell belongs to one of nine boundary classes (four corners,
 four edges, the interior); each class carries a fixed list of id offsets to
 the cell's 8-neighbours.
 */
module Grid {

  /** The row/column pair encoded by `ToIndex`. */
  datatype Coord = Coord(row: int, col: int)

  /** The linear id of cell (i, j): N*j + i. */
  function ToIndex(n: int, i: int, j: int): int
  {
    n * j + i
  }

  /** Python's `int(v / n)`: the quotient truncated toward zero. */
  function TruncDiv(v: int, n: int): int
    requires n > 0
  {
    if v >= 0 then v / n else -((-v) / n)
  }

  /** Decodes a linear id: the row is `v % n` (Python's `%`, which agrees with
      Dafny's for a positive divisor) and the column is `int(v / n)`. */
  function ToCoord(n: int, v: int): Coord
    requires n > 0
  {
    Coord(v % n, TruncDiv(v, n))
  }

  function Row(n: int, v: int): int
    requires n > 0
  {
    ToCoord(n, v).row
  }

  function Col(n: int, v: int): int
    requires n > 0
  {
    ToCoord(n, v).col
  }

  /** Cells a and b are adjacent when rows and columns each differ by at most one. */
  predicate Adjacent(n: int, a: int, b: int)
    requires n > 0
  {
    -1 <= Row(n, a) - Row(n, b) <= 1 && -1 <= Col(n, a) - Col(n, b) <= 1
  }

  /** Adjacent and distinct. */
  predicate ProperAdjacent(n: int, a: int, b: int)
    requires n > 0
  {
    a != b && Adjacent(n, a, b)
  }

  predicate InGrid(n: int, m: int, v: int)
  {
    0 <= v < n * m
  }

  lemma MulMonotone(n: int, a: int, b: int)
    requires n > 0 && a <= b
    ensures n * a <= n * b
  {
    var d := b - a;
    assert n * b == n * a + n * d;
  }

  /** Division by n of i + n*j with i a valid row recovers (i, j). */
  lemma DivModOf(n: int, i: int, j: int)
    requires n > 0 && 0 <= i < n && j >= 0
    ensures (n * j + i) / n == j && (n * j + i) % n == i
  {
    var v := n * j + i;
    var q, r := v / n, v % n;
    assert v == n * q + r;
    if q < j {
      MulMonotone(n, q + 1, j);
    } else if q > j {
      MulMonotone(n, j + 1, q);
    }
  }

  /** For a valid row i, the id i + n*j lies in the grid exactly when j is a valid column. */
  lemma InGridIff(n: int, m: int, i: int, j: int)
    requires n > 0 && m > 0 && 0 <= i < n
    ensures InGrid(n, m, n * j + i) <==> 0 <= j < m
  {
    if j < 0 {
      MulMonotone(n, j, -1);
    } else if j >= m {
      MulMonotone(n, m, j);
    } else {
      MulMonotone(n, j, m - 1);
      assert n * (m - 1) == n * m - n;
    }
  }

  /** Index encoding round trip: (i, j) -> id -> (i, j), and the id is in range. */
  lemma CoordRoundTrip(n: int, m: int, i: int, j: int)
    requires n > 0 && m > 0 && 0 <= i < n && 0 <= j < m
    ensures InGrid(n, m, ToIndex(n, i, j))
    ensures ToCoord(n, ToIndex(n, i, j)) == Coord(i, j)
  {
    DivModOf(n, i, j);
    InGridIff(n, m, i, j);
  }

  /** Every id of the grid decodes to a valid cell and re-encodes to itself. */
  lemma IndexRoundTrip(n: int, m: int, v: int)
    requires n > 0 && m > 0 && InGrid(n, m, v)
    ensures 0 <= Row(n, v) < n && 0 <= Col(n, v) < m
    ensures ToIndex(n, Row(n, v), Col(n, v)) == v
  {
    var i, j := v % n, v / n;
    assert v == n * j + i;
    InGridIff(n, m, i, j);
  }

  /** The boundary class of cell (i, j), as left by the writes of the table
      construction: the default 4 (interior), then the four corners 0, 2, 6, 8,
      then the top and bottom edges 1 and 7, then the left and right edges 3
      and 5.  A later write wins, which matters only on degenerate grids. */
  function RegionOf(n: int, m: int, i: int, j: int): int
  {
    if 1 <= i <= n - 2 && j == m - 1 then 5
    else if 1 <= i <= n - 2 && j == 0 then 3
    else if 1 <= j <= m - 2 && i == n - 1 then 7
    else if 1 <= j <= m - 2 && i == 0 then 1
    else if i == n - 1 && j == m - 1 then 8
    else if i == n - 1 && j == 0 then 6
    else if i == 0 && j == m - 1 then 2
    else if i == 0 && j == 0 then 0
    else 4
  }

  /** The boundary class of every cell, indexed by linear id. */
  function RegionTable(n: nat, m: nat): (table: seq<int>)
    requires n > 0
    ensures |table| == n * m
  {
    seq(n * m, x requires 0 <= x => RegionOf(n, m, Row(n, x), Col(n, x)))
  }

  /** The nine neighbour-offset lists, one per boundary class, in the fixed
      iteration order used to scan a cell's neighbours. */
  function OffsetTable(n: int): seq<seq<int>>
  {
    [ [1, n, n + 1],
      [-n, -n + 1, 1, n, n + 1],
      [-n, -n + 1, 1],
      [-1, 1, n - 1, n, n + 1],
      [-n - 1, -n, -n + 1, -1, 1, n - 1, n, n + 1],
      [-n - 1, -n, -n + 1, -1, 1],
      [-1, -1 + n, n],
      [-n - 1, -n, -1, n - 1, n],
      [-1 - n, -n, -1] ]
  }

  /** The (row step, column step) that each entry of `OffsetTable` encodes. */
  function Moves(cls: int): seq<Coord>
    requires 0 <= cls < 9
  {
    match cls
    case 0 => [Coord(1, 0), Coord(0, 1), Coord(1, 1)]
    case 1 => [Coord(0, -1), Coord(1, -1), Coord(1, 0), Coord(0, 1), Coord(1, 1)]
    case 2 => [Coord(0, -1), Coord(1, -1), Coord(1, 0)]
    case 3 => [Coord(-1, 0), Coord(1, 0), Coord(-1, 1), Coord(0, 1), Coord(1, 1)]
    case 4 => [Coord(-1, -1), Coord(0, -1), Coord(1, -1), Coord(-1, 0),
               Coord(1, 0), Coord(-1, 1), Coord(0, 1), Coord(1, 1)]
    case 5 => [Coord(-1, -1), Coord(0, -1), Coord(1, -1), Coord(-1, 0), Coord(1, 0)]
    case 6 => [Coord(-1, 0), Coord(-1, 1), Coord(0, 1)]
    case 7 => [Coord(-1, -1), Coord(0, -1), Coord(-1, 0), Coord(-1, 1), Coord(0, 1)]
    case _ => [Coord(-1, -1), Coord(0, -1), Coord(-1, 0)]
  }

  lemma OffsetsEncodeMoves(n: int, cls: int)
    requires 0 <= cls < 9
    ensures |OffsetTable(n)[cls]| == |Moves(cls)|
    ensures forall k :: 0 <= k < |Moves(cls)| ==>
      OffsetTable(n)[cls][k] == Moves(cls)[k].row + n * Moves(cls)[k].col
  {
  }

  /** For a cell (i, j) of an N >= 2 grid, each move of its class keeps the row
      inside the grid and the column at most one step left of it, never stays
      put, and every in-grid neighbour is one of the moves. */
  lemma MovesOfClass(n: int, m: int, i: int, j: int)
    requires n >= 2 && m >= 1 && 0 <= i < n && 0 <= j < m
    ensures 0 <= RegionOf(n, m, i, j) < 9
    ensures forall d :: d in Moves(RegionOf(n, m, i, j)) ==>
      && -1 <= d.row <= 1 && -1 <= d.col <= 1
      && 0 <= i + d.row < n && -1 <= j + d.col < m
      && d != Coord(0, 0)
    ensures forall d: Coord ::
      && -1 <= d.row <= 1 && -1 <= d.col <= 1 && d != Coord(0, 0)
      && 0 <= i + d.row < n && 0 <= j + d.col < m
      ==> d in Moves(RegionOf(n, m, i, j))
  {
  }

  /** The offset list scanned for cell x: the list of x's boundary class. */
  function NeighbourOffsets(n: nat, m: nat, x: int): (offs: seq<int>)
    requires n >= 2 && m >= 1 && InGrid(n, m, x)
    ensures 3 <= |offs| <= 8
  {
    var i, j := Row(n, x), Col(n, x);
    IndexRoundTrip(n, m, x);
    MovesOfClass(n, m, i, j);
    OffsetsEncodeMoves(n, RegionTable(n, m)[x]);
    OffsetTable(n)[RegionTable(n, m)[x]]
  }

  lemma Distribute(n: int, a: int, b: int)
    ensures n * (a + b) == n * a + n * b
  {
  }

  /** The row and column of the id n*j + i, for a valid row i and j >= 0. */
  lemma RowColOf(n: int, i: int, j: int)
    requires n > 0 && 0 <= i < n && j >= 0
    ensures Row(n, n * j + i) == i && Col(n, n * j + i) == j
  {
    DivModOf(n, i, j);
  }

  /** x + (d.row + n*d.col), for x = n*j + i, is the id of cell (i + d.row, j + d.col). */
  lemma StepId(n: int, i: int, j: int, d: Coord)
    ensures (n * j + i) + (d.row + n * d.col) == n * (j + d.col) + (i + d.row)
  {
    Distribute(n, j, d.col);
  }

  /** A move of at most one step in each direction, other than staying put,
      that keeps the row in the grid and the column at most one step left of
      it, changes the id; when the id it reaches is in range, that cell is a
      proper 8-neighbour. */
  lemma MoveLands(n: nat, m: nat, i: int, j: int, d: Coord)
    requires n >= 2 && m >= 1 && 0 <= i < n && 0 <= j < m
    requires -1 <= d.row <= 1 && -1 <= d.col <= 1 && d != Coord(0, 0)
    requires 0 <= i + d.row < n && -1 <= j + d.col < m
    ensures d.row + n * d.col != 0
    ensures InGrid(n, m, n * j + i + (d.row + n * d.col)) ==>
      ProperAdjacent(n, n * j + i, n * j + i + (d.row + n * d.col))
  {
    var x := n * j + i;
    var c := x + (d.row + n * d.col);
    StepId(n, i, j, d);
    if j + d.col == -1 {
      assert c == i + d.row - n;
    } else {
      RowColOf(n, i + d.row, j + d.col);
      RowColOf(n, i, j);
      assert c != x;
    }
  }

  /** One entry of x's offset list is non-zero and, when it stays in range,
      lands on a proper 8-neighbour of x. */
  lemma OffsetIsNeighbour(n: nat, m: nat, x: int, k: int)
    requires n >= 2 && m >= 1 && InGrid(n, m, x)
    requires 0 <= k < |NeighbourOffsets(n, m, x)|
    ensures NeighbourOffsets(n, m, x)[k] != 0
    ensures InGrid(n, m, x + NeighbourOffsets(n, m, x)[k]) ==>
      ProperAdjacent(n, x, x + NeighbourOffsets(n, m, x)[k])
  {
    var i, j := Row(n, x), Col(n, x);
    IndexRoundTrip(n, m, x);
    var cls := RegionOf(n, m, i, j);
    OffsetsEncodeMoves(n, cls);
    MoveOfClass(n, m, i, j, k);
    MoveLands(n, m, i, j, Moves(cls)[k]);
  }

  /** The k-th move of the class of (i, j) is a single step that keeps the
      row in the grid and the column at most one step left of it. */
  lemma MoveOfClass(n: int, m: int, i: int, j: int, k: int)
    requires n >= 2 && m >= 1 && 0 <= i < n && 0 <= j < m
    requires 0 <= RegionOf(n, m, i, j) < 9 && 0 <= k < |Moves(RegionOf(n, m, i, j))|
    ensures var d := Moves(RegionOf(n, m, i, j))[k];
      && -1 <= d.row <= 1 && -1 <= d.col <= 1 && d != Coord(0, 0)
      && 0 <= i + d.row < n && -1 <= j + d.col < m
  {
    MovesOfClass(n, m, i, j);
    assert Moves(RegionOf(n, m, i, j))[k] in Moves(RegionOf(n, m, i, j));
  }

  /** Every proper 8-neighbour c of x is x plus some entry of x's offset list. */
  lemma NeighbourIsReached(n: nat, m: nat, x: int, c: int)
    requires n >= 2 && m >= 1 && InGrid(n, m, x)
    requires InGrid(n, m, c) && ProperAdjacent(n, x, c)
    ensures c - x in NeighbourOffsets(n, m, x)
  {
    var i, j := Row(n, x), Col(n, x);
    IndexRoundTrip(n, m, x);
    IndexRoundTrip(n, m, c);
    var cls := RegionOf(n, m, i, j);
    MovesOfClass(n, m, i, j);
    OffsetsEncodeMoves(n, cls);
    var d := Coord(Row(n, c) - i, Col(n, c) - j);
    assert d != Coord(0, 0);
    assert d in Moves(cls);
    var k :| 0 <= k < |Moves(cls)| && Moves(cls)[k] == d;
    StepId(n, i, j, d);
    assert NeighbourOffsets(n, m, x)[k] == c - x;
  }

  /** Neighbour-table correctness: on an N >= 2 grid no offset of x's class is
      zero, every in-range x + offset is a proper 8-neighbour of x (no
      wrap-around between columns), and every proper 8-neighbour of x is
      reached by one of the offsets. */
  lemma NeighbourTable(n: nat, m: nat, x: int)
    requires n >= 2 && m >= 1 && InGrid(n, m, x)
    ensures forall off :: off in NeighbourOffsets(n, m, x) ==>
      off != 0 && (InGrid(n, m, x + off) ==> ProperAdjacent(n, x, x + off))
    ensures forall c :: InGrid(n, m, c) && ProperAdjacent(n, x, c) ==>
      c - x in NeighbourOffsets(n, m, x)
  {
    var offs := NeighbourOffsets(n, m, x);
    forall off | off in offs
      ensures off != 0 && (InGrid(n, m, x + off) ==> ProperAdjacent(n, x, x + off))
    {
      var k :| 0 <= k < |offs| && offs[k] == off;
      OffsetIsNeighbour(n, m, x, k);
    }
    forall c | InGrid(n, m, c) && ProperAdjacent(n, x, c)
      ensures c - x in offs
    {
      NeighbourIsReached(n, m, x, c);
    }
  }
}

=== FILE: js_build.dfy ===
/**
 Building the tree: construction of an empty builder, the reset, `make`
 (validation of the insertion order followed by one insertion per cell),
 the getters, and what a completed build guarantees.
 */
module JsBuild {
  import opened Grid
  import opened UnionFind
  import opened SeqUtil
  import opened JsTree
  import opened JsStep
  import opened JsInvariant

  /** How `make` ends: normally, or by raising an exception. */
  datatype Outcome = Done | Raised(error: Error)

  /** The all-zero depth: no cell is linked yet. */
  function ZeroDepth(k: nat): (d: seq<nat>)
    ensures |d| == k && forall y :: 0 <= y < k ==> d[y] == 0
  {
    seq(k, _ => 0)
  }

  /** `initaillize`: every per-cell array back to its empty value (flags
      false, maps and sizes zero, both parent arrays the sentinel N*M), the
      counters to zero, and the built flag cleared.  The dimensions, the
      tables and the insertion order are kept. */
  function Initialize(t: Tree): (res: Tree)
    ensures res.n == t.n && res.m == t.m && res.regions == t.regions && res.adj == t.adj
    ensures res.order == t.order && !res.made && Len(res) == 0
    ensures |res.parent| == t.n * t.m
    ensures forall y :: !Contains(res, y)
    ensures res.next == 0 && res.nComps == 0
    ensures |res.isRoot| == |res.leaf| == |res.bifurcation| == t.n * t.m
    ensures |res.uf| == |res.size| == |res.repOf| == t.n * t.m
    ensures forall y :: 0 <= y < t.n * t.m ==>
      && !res.isRoot[y] && !res.leaf[y] && !res.bifurcation[y]
      && res.uf[y] == NoneId(t) && res.parent[y] == NoneId(t) && res.size[y] == 0 && res.repOf[y] == 0
  {
    var k := t.n * t.m;
    t.(bifurcation := seq(k, _ => false), leaf := seq(k, _ => false), made := false,
       nElts := 0, nComps := 0, next := 0,
       isRoot := seq(k, _ => false), repOf := seq(k, _ => 0), size := seq(k, _ => 0),
       uf := seq(k, _ => k), parent := seq(k, _ => k))
  }

  /** A state `make` may be called on: shaped, and either built before or
      untouched since construction. */
  ghost predicate Ready(t: Tree)
  {
    Shaped(t) && (t.made || Initialize(t) == t)
  }

  /** The condition `make` checks: N*M entries whose value set is exactly
      {0, ..., N*M - 1}. */
  predicate IsPermutation(a: seq<int>, k: nat)
  {
    |a| == k && Elems(a) == Elems(Upto(k))
  }

  /** An order that passes the check lists every cell, and only cells. */
  lemma PermutationCovers(a: seq<int>, k: nat)
    requires IsPermutation(a, k)
    ensures forall x :: 0 <= x < k ==> x in a
    ensures forall i :: 0 <= i < |a| ==> 0 <= a[i] < k
  {
    forall x | 0 <= x < k ensures x in a {
      assert x == Upto(k)[x];
      assert x in Elems(Upto(k));
    }
    forall i | 0 <= i < |a| ensures 0 <= a[i] < k {
      assert a[i] in Elems(a);
    }
  }

  /** An empty state over a valid order satisfies the invariant. */
  lemma InitialValid(t: Tree)
    requires Shaped(t) && Initialize(t) == t && IsPermutation(t.order, t.n * t.m)
    ensures Valid(t, ZeroDepth(t.n * t.m))
  {
    var d := ZeroDepth(t.n * t.m);
    PermutationCovers(t.order, t.n * t.m);
    assert forall y :: !Linked(t.uf, y);
    assert ForestRoots(t) == {};
    forall r ensures RepOk(t, d, r) { }
    forall y ensures ForestRootOk(t, d, y) { }
    forall y ensures ParentOk(t, d, y) { }
    forall a, b ensures JoinedAt(t, d, a, b) { }
    forall p ensures LeafOk(t, p) { }
    forall r ensures SizeOk(t, d, r) { }
    forall y ensures RootReach(t, d, y) { }
    forall p ensures ParentLater(t, p) { }
  }

  /** k consecutive calls of `bfalg_add`. */
  function Run(t: Tree, k: nat, ghost depth: seq<nat>): (res: Tree)
    requires Valid(t, depth)
    ensures Valid(res, RunDepth(t, k, depth))
    ensures res.n == t.n && res.m == t.m && res.order == t.order && res.made == t.made
    ensures res.next == if t.next + k <= t.n * t.m then t.next + k else t.n * t.m
    decreases k
  {
    if k == 0 then t
    else
      StepValid(t, depth);
      if t.next < t.n * t.m then StepFields(t, depth); Run(Step(t, depth), k - 1, NextDepth(t, depth))
      else Run(Step(t, depth), k - 1, NextDepth(t, depth))
  }

  /** The depth measure after k insertions. */
  ghost function RunDepth(t: Tree, k: nat, depth: seq<nat>): seq<nat>
    requires Valid(t, depth)
    decreases k
  {
    if k == 0 then depth
    else
      StepValid(t, depth);
      RunDepth(Step(t, depth), k - 1, NextDepth(t, depth))
  }

  /** Once every cell is inserted, every cell is in the tree. */
  lemma AllInserted(t: Tree, d: seq<nat>, y: int)
    requires Valid(t, d) && t.next == t.n * t.m && 0 <= y < t.n * t.m
    ensures Contains(t, y) && Linked(t.uf, y)
  {
    assert t.order[..t.next] == t.order;
  }

  /** Every cell of the grid other than cell 0 has a proper 8-neighbour with
      a smaller id: the cell above it, or the cell to its left on row 0. */
  lemma SmallerNeighbour(n: nat, m: nat, y: int) returns (z: int)
    requires n >= 2 && m >= 1 && 0 < y < n * m
    ensures 0 <= z < y && ProperAdjacent(n, y, z)
  {
    IndexRoundTrip(n, m, y);
    var i, j := Row(n, y), Col(n, y);
    if i > 0 {
      z := y - 1;
      assert z == n * j + (i - 1);
      RowColOf(n, i - 1, j);
    } else {
      assert j > 0;
      z := y - n;
      assert z == n * (j - 1) + 0 by {
        assert n * j == n * (j - 1) + n;
      }
      RowColOf(n, 0, j - 1);
    }
  }

  /** After the last insertion every cell is in the component of cell 0. */
  lemma {:induction false} Connected(t: Tree, d: seq<nat>, y: int)
    requires Valid(t, d) && t.next == t.n * t.m && 0 <= y < t.n * t.m
    ensures Linked(t.uf, y) && Linked(t.uf, 0)
    ensures RootOf(t.uf, d, y) == RootOf(t.uf, d, 0)
    decreases y
  {
    AllInserted(t, d, y);
    AllInserted(t, d, 0);
    if y > 0 {
      var z := SmallerNeighbour(t.n, t.m, y);
      Connected(t, d, z);
      AllInserted(t, d, z);
      assert JoinedAt(t, d, y, z);
    }
  }

  /** After the last insertion exactly one cell is its own forest parent,
      the last cell of the order, and the component count is one. */
  lemma SingleRoot(t: Tree, d: seq<nat>)
    requires Valid(t, d) && t.next == t.n * t.m
    ensures |ForestRoots(t)| == 1 && t.nComps == 1
    ensures ForestRoots(t) == {t.order[t.n * t.m - 1]}
  {
    AllInserted(t, d, 0);
    var r0 := RootOf(t.uf, d, 0);
    assert RepOk(t, d, r0);
    var top := t.repOf[r0];
    forall y | y in ForestRoots(t) ensures y == top {
      assert ForestRootOk(t, d, y);
      Connected(t, d, y);
    }
    assert ForestRoots(t) == {top};
    var last := t.order[t.n * t.m - 1];
    AllInserted(t, d, last);
    assert last in ForestRoots(t);
  }

  /** The state after the last insertion: every cell inserted with its
      forest parent a cell, one component whose single forest root is the
      last cell of the order, every other cell's forest parent later in the
      order, and each cell a leaf exactly when none of its 8-neighbours
      precedes it in the order. */
  ghost predicate Complete(t: Tree)
  {
    AllCells(t) && OneRoot(t) && OrderedCells(t) && LeavesFollowOrder(t)
  }

  /** Every cell inserted, with a cell as forest parent, over an order of cells. */
  ghost predicate AllCells(t: Tree)
  {
    && Shaped(t) && Len(t) == t.n * t.m && |t.order| == t.n * t.m
    && (forall y :: 0 <= y < t.n * t.m ==> Contains(t, y) && 0 <= t.parent[y] < t.n * t.m)
    && (forall p :: 0 <= p < |t.order| ==> 0 <= t.order[p] < t.n * t.m)
  }

  /** One component, whose single forest root is the last cell of the order. */
  ghost predicate OneRoot(t: Tree)
    requires AllCells(t)
  {
    && |ForestRoots(t)| == 1 && t.nComps == 1
    && ForestRoots(t) == {t.order[t.n * t.m - 1]}
  }

  /** Every cell listed once, and every other forest parent later in the order. */
  ghost predicate OrderedCells(t: Tree)
    requires AllCells(t)
  {
    && NoDup(t.order) && (forall y :: 0 <= y < t.n * t.m ==> y in t.order)
    && (forall p {:trigger LaterAt(t.parent, t.order, p)} :: LaterAt(t.parent, t.order, p))
  }

  /** Each cell a leaf exactly when none of its 8-neighbours precedes it. */
  ghost predicate LeavesFollowOrder(t: Tree)
    requires AllCells(t)
  {
    forall p :: 0 <= p < |t.order| ==>
      (t.leaf[t.order[p]] <==> forall q :: 0 <= q < p ==> !ProperAdjacent(t.n, t.order[p], t.order[q]))
  }

  /** A completed build: the state after the last insertion, marked built. */
  ghost predicate Built(t: Tree)
  {
    t.made && Complete(t)
  }

  /** The loop of `make` from an empty state: N*M insertions, then the
      built flag. */
  function Build(t: Tree): (res: Tree)
    requires Shaped(t) && Initialize(t) == t && IsPermutation(t.order, t.n * t.m)
    ensures Built(res) && Ready(res) && res.n == t.n && res.m == t.m && res.order == t.order
  {
    var k := NoneId(t);
    var d := ZeroDepth(k);
    InitialValid(t);
    var t2 := Run(t, k, d);
    BuildComplete(t2, RunDepth(t, k, d));
    MarkBuilt(t2);
    t2.(made := true)
  }

  /** Setting the built flag changes neither membership nor forest roots.
      This lemma and the four after it are proof structure only: each part
      of `Complete` is carried across the flag separately, which keeps the
      verifier's work small and stable. */
  lemma MarkBuilt(t: Tree)
    requires Complete(t)
    ensures Built(t.(made := true))
  {
    var t' := t.(made := true);
    CellsKept(t, t');
    RootKept(t, t');
    OrderKept(t, t');
    LeavesKept(t, t');
  }

  /** The parts of a completed build depend on no flag of the builder
      (proof structure, as for `MarkBuilt`). */
  lemma CellsKept(t: Tree, t': Tree)
    requires AllCells(t) && t' == t.(made := t'.made)
    ensures AllCells(t')
  {
    assert forall y :: Contains(t', y) == Contains(t, y);
  }

  lemma RootKept(t: Tree, t': Tree)
    requires AllCells(t) && OneRoot(t) && t' == t.(made := t'.made)
    ensures AllCells(t') && OneRoot(t')
  {
    CellsKept(t, t');
    assert ForestRoots(t') == ForestRoots(t);
  }

  lemma OrderKept(t: Tree, t': Tree)
    requires AllCells(t) && OrderedCells(t) && t' == t.(made := t'.made)
    ensures AllCells(t') && OrderedCells(t')
  {
    CellsKept(t, t');
  }

  lemma LeavesKept(t: Tree, t': Tree)
    requires AllCells(t) && LeavesFollowOrder(t) && t' == t.(made := t'.made)
    ensures AllCells(t') && LeavesFollowOrder(t')
  {
    CellsKept(t, t');
  }

  /** `make`.  The order is stored first; then an order that is not a
      permutation of the cell ids raises ValueError, leaving every other
      field as it was.  Otherwise a previously built state is reset, every
      cell is inserted in turn, and the state is marked built. */
  function Make(t: Tree, arr: seq<int>): (res: (Tree, Outcome))
    requires Ready(t)
    ensures res.1 == Done || res.1 == Raised(ValueError)
    ensures res.1 == Raised(ValueError) <==> !IsPermutation(arr, t.n * t.m)
    ensures res.1 != Done ==> res.0 == t.(order := arr)
    ensures res.1 == Done ==>
      Built(res.0) && Ready(res.0) && res.0.order == arr && res.0.n == t.n && res.0.m == t.m
  {
    var t0 := t.(order := arr);
    if !IsPermutation(arr, NoneId(t)) then (t0, Raised(ValueError))
    else (Build(if t0.made then Initialize(t0) else t0), Done)
  }

  /** What the last insertion leaves behind. */
  lemma BuildComplete(t: Tree, d: seq<nat>)
    requires Valid(t, d) && t.next == t.n * t.m
    ensures Complete(t)
  {
    SingleRoot(t, d);
    OrderNoDup(t);
    forall y | 0 <= y < t.n * t.m ensures Contains(t, y) && 0 <= t.parent[y] < t.n * t.m {
      AllInserted(t, d, y);
      assert ParentOk(t, d, y);
    }
    assert t.order[..t.next] == t.order;
    forall p ensures LaterAt(t.parent, t.order, p) {
      assert ParentLater(t, p);
    }
    forall p | 0 <= p < |t.order|
      ensures t.leaf[t.order[p]] <==> forall q :: 0 <= q < p ==> !ProperAdjacent(t.n, t.order[p], t.order[q])
    {
      assert LeafOk(t, p);
    }
  }

  /** The cell reached from y by k forest-parent steps. */
  function Ancestor(parent: seq<int>, y: int, k: nat): (a: int)
    requires 0 <= y < |parent| && forall x :: 0 <= x < |parent| ==> 0 <= parent[x] < |parent|
    ensures 0 <= a < |parent|
    decreases k
  {
    if k == 0 then y else Ancestor(parent, parent[y], k - 1)
  }

  /** From y, as many forest-parent steps as there are cells less one. */
  function Climb(parent: seq<int>, y: int): (a: int)
    requires 0 <= y < |parent| && forall x :: 0 <= x < |parent| ==> 0 <= parent[x] < |parent|
    ensures 0 <= a < |parent|
  {
    Ancestor(parent, y, |parent| - 1)
  }

  /** A parent array over the cells listed once each in an order, in which
      only the last cell is its own parent and every other parent comes
      later in the order. */
  ghost predicate Ordered(parent: seq<int>, order: seq<int>)
  {
    && |parent| == |order| > 0 && NoDup(order)
    && (forall p :: 0 <= p < |order| ==> 0 <= order[p] < |parent|)
    && (forall x :: 0 <= x < |parent| ==> 0 <= parent[x] < |parent| && x in order)
    && (forall y :: 0 <= y < |parent| ==> (parent[y] == y <==> y == order[|order| - 1]))
    && (forall p {:trigger LaterAt(parent, order, p)} :: LaterAt(parent, order, p))
  }

  /** The parent of the p-th cell of the order, unless it is the cell
      itself, comes later in the order. */
  ghost predicate LaterAt(parent: seq<int>, order: seq<int>, p: int)
  {
    (0 <= p < |order| && 0 <= order[p] < |parent| && parent[order[p]] != order[p])
      ==> parent[order[p]] in order[p + 1..]
  }

  /** The last cell of the order is its own parent, so it stays put. */
  lemma {:induction false} TopFixed(parent: seq<int>, order: seq<int>, k: nat)
    requires Ordered(parent, order)
    ensures Ancestor(parent, order[|order| - 1], k) == order[|order| - 1]
  {
    if k > 0 {
      TopFixed(parent, order, k - 1);
    }
  }

  /** Climbing k parent steps from the p-th cell of the order lands on the
      q-th cell, with q at least p + k or the last position. */
  lemma {:induction false} AncestorLater(parent: seq<int>, order: seq<int>, p: int, k: nat) returns (q: int)
    requires Ordered(parent, order) && 0 <= p < |order|
    ensures p <= q < |order| && order[q] == Ancestor(parent, order[p], k)
    ensures q >= p + k || q == |order| - 1
    decreases k
  {
    var last := |order| - 1;
    if k == 0 {
      q := p;
    } else if order[p] == order[last] {
      TopFixed(parent, order, k);
      q := last;
    } else {
      assert p < last;
      var q1 := LaterParent(parent, order, p);
      q := AncestorLater(parent, order, q1, k - 1);
      assert Ancestor(parent, order[p], k) == Ancestor(parent, order[q1], k - 1);
    }
  }

  /** The parent of any cell but the last lies later in the order. */
  lemma LaterParent(parent: seq<int>, order: seq<int>, p: int) returns (q: int)
    requires Ordered(parent, order) && 0 <= p < |order| - 1
    ensures p < q < |order| && order[q] == parent[order[p]]
  {
    var y := order[p];
    assert y != order[|order| - 1];
    assert parent[y] != y;
    assert LaterAt(parent, order, p);
    var rest := order[p + 1..];
    assert parent[y] in rest;
    var i :| 0 <= i < |rest| && rest[i] == parent[y];
    q := p + 1 + i;
    assert rest[i] == order[q];
  }

  /** In such a parent array every cell climbs to the last cell of the
      order, and no other cell lies on a cycle. */
  lemma OrderedIsTree(parent: seq<int>, order: seq<int>)
    requires Ordered(parent, order)
    ensures forall y :: 0 <= y < |parent| ==> Climb(parent, y) == order[|order| - 1]
    ensures forall y, k :: 0 <= y < |parent| && 0 < k && Ancestor(parent, y, k) == y ==>
      y == order[|order| - 1]
  {
    forall y | 0 <= y < |parent| ensures Climb(parent, y) == order[|order| - 1] {
      ClimbsToTop(parent, order, y);
    }
    forall y, k | 0 <= y < |parent| && 0 < k && Ancestor(parent, y, k) == y
      ensures y == order[|order| - 1]
    {
      OnlyTopCycles(parent, order, y, k);
    }
  }

  lemma ClimbsToTop(parent: seq<int>, order: seq<int>, y: int)
    requires Ordered(parent, order) && 0 <= y < |parent|
    ensures Climb(parent, y) == order[|order| - 1]
  {
    assert y in order;
    var p :| 0 <= p < |order| && order[p] == y;
    var q := AncestorLater(parent, order, p, |order| - 1);
    assert q == |order| - 1;
    assert Climb(parent, y) == Ancestor(parent, order[p], |order| - 1);
  }

  lemma OnlyTopCycles(parent: seq<int>, order: seq<int>, y: int, k: nat)
    requires Ordered(parent, order) && 0 <= y < |parent| && 0 < k
    requires Ancestor(parent, y, k) == y
    ensures y == order[|order| - 1]
  {
    var p :| 0 <= p < |order| && order[p] == y;
    var q := AncestorLater(parent, order, p, k);
    if p < |order| - 1 {
      assert false;
    }
  }

  /** A completed build's forest parents are ordered by the insertion order. */
  lemma CompleteOrdered(t: Tree)
    requires Complete(t)
    ensures Ordered(t.parent, t.order)
  {
    OnlyLastRoot(t);
    assert |t.parent| == |t.order| == t.n * t.m > 0;
    assert OrderedCells(t);
    forall x | 0 <= x < |t.parent| ensures 0 <= t.parent[x] < |t.parent| && x in t.order {
    }
  }

  /** In a completed build only the last cell of the order is its own forest
      parent. */
  lemma OnlyLastRoot(t: Tree)
    requires AllCells(t) && OneRoot(t)
    ensures forall y :: 0 <= y < t.n * t.m ==> (t.parent[y] == y <==> y == t.order[t.n * t.m - 1])
  {
    var last := t.order[t.n * t.m - 1];
    forall y | 0 <= y < t.n * t.m ensures t.parent[y] == y <==> y == last {
      if t.parent[y] == y {
        assert y in ForestRoots(t);
      }
      assert last in ForestRoots(t);
    }
  }

  /** A completed build spawns a tree, a connected graph without cycles:
      from every cell, N*M - 1 forest-parent steps reach the last cell of
      the order, and no cell but that one returns to itself. */
  lemma MergeTree(t: Tree)
    requires Complete(t)
    ensures |t.parent| == |t.order| == t.n * t.m
    ensures forall y :: 0 <= y < t.n * t.m ==> Climb(t.parent, y) == t.order[t.n * t.m - 1]
    ensures forall y, k :: 0 <= y < t.n * t.m && 0 < k && Ancestor(t.parent, y, k) == y ==>
      y == t.order[t.n * t.m - 1]
  {
    CompleteOrdered(t);
    OrderedIsTree(t.parent, t.order);
  }

  /** The result of a successful `make` depends only on the grid and the
      order: whatever was built before is forgotten. */
  lemma MakeForgetsHistory(t1: Tree, t2: Tree, arr: seq<int>)
    requires Ready(t1) && Ready(t2) && t1.n == t2.n && t1.m == t2.m
    requires IsPermutation(arr, t1.n * t1.m)
    ensures Make(t1, arr) == Make(t2, arr)
  {
    var s1, s2 := t1.(order := arr), t2.(order := arr);
    assert Initialize(s1) == Initialize(s2);
    if !s1.made {
      assert Initialize(s1) == s1;
    }
    if !s2.made {
      assert Initialize(s2) == s2;
    }
  }

  /** The getters raise NotImplementedError until a build has completed and
      return the arrays afterwards. */
  function GetBifurcationPoint(t: Tree): (r: Result<seq<bool>>)
    ensures r.Ok? <==> t.made
    ensures r.Ok? ==> r.value == t.bifurcation
    ensures r.Err? ==> r.error == NotImplementedError
  {
    if !t.made then Err(NotImplementedError) else Ok(t.bifurcation)
  }

  function GetLeafInformation(t: Tree): (r: Result<seq<bool>>)
    ensures r.Ok? <==> t.made
    ensures r.Ok? ==> r.value == t.leaf
    ensures r.Err? ==> r.error == NotImplementedError
  {
    if !t.made then Err(NotImplementedError) else Ok(t.leaf)
  }

  function GetJStreeData(t: Tree): (r: Result<seq<int>>)
    ensures r.Ok? <==> t.made
    ensures r.Ok? ==> r.value == t.parent
    ensures r.Err? ==> r.error == NotImplementedError
  {
    if !t.made then Err(NotImplementedError) else Ok(t.parent)
  }

  /** What the getters answer on a completed build: the tree data is a
      parent array over the cells in which only the last cell of the order
      is its own parent and every cell climbs to it, the leaf information marks exactly the cells with
      no earlier 8-neighbour, and the bifurcation flags cover every cell. */
  ghost predicate Answers(t: Tree, arr: seq<int>, k: int)
    requires |arr| == k > 0 && t.n > 0
  {
    && GetJStreeData(t).Ok? && GetLeafInformation(t).Ok? && GetBifurcationPoint(t).Ok?
    && |GetJStreeData(t).value| == k && |GetBifurcationPoint(t).value| == k
    && |GetLeafInformation(t).value| == k
    && (forall y :: 0 <= y < k ==> 0 <= GetJStreeData(t).value[y] < k)
    && (forall y :: 0 <= y < k ==> (GetJStreeData(t).value[y] == y <==> y == arr[k - 1]))
    && (forall y :: 0 <= y < k ==> Climb(GetJStreeData(t).value, y) == arr[k - 1])
    && (forall p :: 0 <= p < k ==> 0 <= arr[p] < k)
    && (forall p :: 0 <= p < k ==>
          (GetLeafInformation(t).value[arr[p]] <==>
             forall q :: 0 <= q < p ==> !ProperAdjacent(t.n, arr[p], arr[q])))
  }

  lemma BuiltAnswers(t: Tree)
    requires Built(t)
    ensures Answers(t, t.order, t.n * t.m)
  {
    CompleteOrdered(t);
    OrderedIsTree(t.parent, t.order);
  }

  /** After a successful `make` every getter answers, as `Answers` says. */
  lemma GettersAfterMake(t: Tree, arr: seq<int>)
    requires Ready(t) && IsPermutation(arr, t.n * t.m)
    ensures Answers(Make(t, arr).0, arr, t.n * t.m)
  {
    BuiltAnswers(Make(t, arr).0);
  }

  // ---------------------------------------------------------------------
  // Construction

  /** The boundary class table part way through its construction: the
      corners, the top and bottom edges for columns in [1, jd), the left and
      right edges for rows in [1, id), and 4 elsewhere.  A later write wins,
      so the tests run in the reverse of `__init__`'s write order. */
  function RegionSoFar(n: int, m: int, jd: int, id: int, i: int, j: int): int
  {
    if 1 <= i < id && j == m - 1 then 5
    else if 1 <= i < id && j == 0 then 3
    else if 1 <= j < jd && i == n - 1 then 7
    else if 1 <= j < jd && i == 0 then 1
    else if i == n - 1 && j == m - 1 then 8
    else if i == n - 1 && j == 0 then 6
    else if i == 0 && j == m - 1 then 2
    else if i == 0 && j == 0 then 0
    else 4
  }

  /** The table holds the classes of the construction stage (jd, id). */
  ghost predicate TableAt(n: nat, m: nat, table: seq<int>, jd: int, id: int)
    requires n > 0
  {
    |table| == n * m &&
    forall x :: 0 <= x < n * m ==> table[x] == RegionSoFar(n, m, jd, id, Row(n, x), Col(n, x))
  }

  /** A cell id names the cell at its row and column and no other. */
  lemma IdOf(n: nat, m: nat, x: int, i: int, j: int)
    requires n > 0 && m > 0 && InGrid(n, m, x) && 0 <= i < n && 0 <= j < m
    ensures InGrid(n, m, ToIndex(n, i, j))
    ensures x == ToIndex(n, i, j) <==> Row(n, x) == i && Col(n, x) == j
  {
    IndexRoundTrip(n, m, x);
    CoordRoundTrip(n, m, i, j);
  }

  /** The four corner writes over the all-4 table reach stage (1, 1). */
  lemma CornersWritten(n: nat, m: nat)
    requires n >= 2 && m >= 1
    ensures InGrid(n, m, ToIndex(n, 0, 0)) && InGrid(n, m, ToIndex(n, 0, m - 1))
    ensures InGrid(n, m, ToIndex(n, n - 1, 0)) && InGrid(n, m, ToIndex(n, n - 1, m - 1))
    ensures TableAt(n, m, seq(n * m, _ => 4)[ToIndex(n, 0, 0) := 0][ToIndex(n, 0, m - 1) := 2]
                                          [ToIndex(n, n - 1, 0) := 6][ToIndex(n, n - 1, m - 1) := 8], 1, 1)
  {
    CoordRoundTrip(n, m, 0, 0);
    CoordRoundTrip(n, m, 0, m - 1);
    CoordRoundTrip(n, m, n - 1, 0);
    CoordRoundTrip(n, m, n - 1, m - 1);
    forall x | 0 <= x < n * m
      ensures seq(n * m, _ => 4)[ToIndex(n, 0, 0) := 0][ToIndex(n, 0, m - 1) := 2]
                [ToIndex(n, n - 1, 0) := 6][ToIndex(n, n - 1, m - 1) := 8][x]
              == RegionSoFar(n, m, 1, 1, Row(n, x), Col(n, x))
    {
      IdOf(n, m, x, 0, 0);
      IdOf(n, m, x, 0, m - 1);
      IdOf(n, m, x, n - 1, 0);
      IdOf(n, m, x, n - 1, m - 1);
    }
  }

  /** One pass of the column loop writes 1 and 7 at the top and bottom of
      column j and advances the stage to column j + 1. */
  lemma EdgesOfColumn(n: nat, m: nat, table: seq<int>, j: int)
    requires n >= 2 && 1 <= j < m - 1 && TableAt(n, m, table, j, 1)
    ensures InGrid(n, m, ToIndex(n, 0, j)) && InGrid(n, m, ToIndex(n, n - 1, j))
    ensures TableAt(n, m, table[ToIndex(n, 0, j) := 1][ToIndex(n, n - 1, j) := 7], j + 1, 1)
  {
    CoordRoundTrip(n, m, 0, j);
    CoordRoundTrip(n, m, n - 1, j);
    forall x | 0 <= x < n * m
      ensures table[ToIndex(n, 0, j) := 1][ToIndex(n, n - 1, j) := 7][x]
              == RegionSoFar(n, m, j + 1, 1, Row(n, x), Col(n, x))
    {
      IdOf(n, m, x, 0, j);
      IdOf(n, m, x, n - 1, j);
    }
  }

  /** One pass of the row loop writes 3 and 5 at the left and right of row
      i and advances the stage to row i + 1. */
  lemma EdgesOfRow(n: nat, m: nat, table: seq<int>, jd: int, i: int)
    requires m >= 1 && 1 <= i < n - 1 && TableAt(n, m, table, jd, i)
    ensures InGrid(n, m, ToIndex(n, i, 0)) && InGrid(n, m, ToIndex(n, i, m - 1))
    ensures TableAt(n, m, table[ToIndex(n, i, 0) := 3][ToIndex(n, i, m - 1) := 5], jd, i + 1)
  {
    CoordRoundTrip(n, m, i, 0);
    CoordRoundTrip(n, m, i, m - 1);
    forall x | 0 <= x < n * m
      ensures table[ToIndex(n, i, 0) := 3][ToIndex(n, i, m - 1) := 5][x]
              == RegionSoFar(n, m, jd, i + 1, Row(n, x), Col(n, x))
    {
      IdOf(n, m, x, i, 0);
      IdOf(n, m, x, i, m - 1);
    }
  }

  /** The final stage is the boundary class table. */
  lemma LastStage(n: nat, m: nat, table: seq<int>, jd: int)
    requires n >= 2 && m >= 1 && (jd == m - 1 || (m <= 2 && jd == 1))
    requires TableAt(n, m, table, jd, n - 1)
    ensures table == RegionTable(n, m)
  {
    forall x | 0 <= x < n * m ensures table[x] == RegionTable(n, m)[x] {
      IndexRoundTrip(n, m, x);
    }
  }

  /** `__init__`: the boundary class table is filled in `__init__`'s order
      (all 4, the four corners, the top and bottom edges, the left and right
      edges) and ends up as the class of every cell; the offset table is the
      fixed one; the state is emptied and no insertion order is held yet. */
  method New(n: nat, m: nat) returns (t: Tree)
    requires n >= 2 && m >= 1
    ensures Ready(t) && !t.made && t.n == n && t.m == m && t.order == []
    ensures forall x :: 0 <= x < n * m ==> t.regions[x] == RegionOf(n, m, Row(n, x), Col(n, x))
    ensures Len(t) == 0 && forall y :: !Contains(t, y)
    ensures GetJStreeData(t) == Err(NotImplementedError)
    ensures GetLeafInformation(t) == Err(NotImplementedError)
    ensures GetBifurcationPoint(t) == Err(NotImplementedError)
  {
    var table := seq(n * m, _ => 4);
    CornersWritten(n, m);
    table := table[ToIndex(n, 0, 0) := 0];
    table := table[ToIndex(n, 0, m - 1) := 2];
    table := table[ToIndex(n, n - 1, 0) := 6];
    table := table[ToIndex(n, n - 1, m - 1) := 8];
    var j := 1;
    while j < m - 1
      invariant 1 <= j && (j <= m - 1 || (m <= 2 && j == 1))
      invariant TableAt(n, m, table, j, 1)
    {
      EdgesOfColumn(n, m, table, j);
      table := table[ToIndex(n, 0, j) := 1];
      table := table[ToIndex(n, n - 1, j) := 7];
      j := j + 1;
    }
    var i := 1;
    while i < n - 1
      invariant 1 <= i <= n - 1
      invariant TableAt(n, m, table, j, i)
    {
      EdgesOfRow(n, m, table, j, i);
      table := table[ToIndex(n, i, 0) := 3];
      table := table[ToIndex(n, i, m - 1) := 5];
      i := i + 1;
    }
    LastStage(n, m, table, j);
    t := Initialize(Tree(n, m, table, OffsetTable(n), [], false, 0, 0, 0,
                         [], [], [], [], [], [], []));
  }
}

=== FILE: js_invariant.dfy ===
/**
 The invariant of the tree builder between insertions, and its
 preservation by one insertion.

 Between insertions the first `next` cells of the order are exactly the
 cells of the tree; union-find roots carry root flags; every union-find
 root r is represented by a cell of its component that is its own forest
 parent, and every such forest root represents its component; forest edges
 stay within a component; adjacent cells of the tree share a component; the
 component count is the number of forest roots; each inserted cell is a
 leaf exactly when none of its 8-neighbours was inserted before it; and
 the most recently inserted cell is a forest root.
 */
module JsInvariant {
  import opened Grid
  import opened UnionFind
  import opened SeqUtil
  import opened JsTree
  import opened JsStep
  import opened JsWalk

  /** The cells that are their own forest parent. */
  ghost function ForestRoots(t: Tree): set<int>
    requires |t.parent| == t.n * t.m
  {
    set y | 0 <= y < t.n * t.m && Contains(t, y) && t.parent[y] == y
  }

  /** The insertion order covers the grid and the counters follow it. */
  ghost predicate OrderOk(t: Tree)
  {
    && |t.order| == t.n * t.m
    && (forall x :: 0 <= x < t.n * t.m ==> x in t.order)
    && t.next <= t.n * t.m && t.nElts == t.next
  }

  /** The union-find root r is represented by a cell of its own component
      that is its own forest parent. */
  ghost predicate RepOk(t: Tree, depth: seq<nat>, r: int)
    requires StepReady(t, depth)
  {
    Linked(t.uf, r) && t.uf[r] == r ==>
      && 0 <= t.repOf[r] < t.n * t.m && Contains(t, t.repOf[r])
      && t.parent[t.repOf[r]] == t.repOf[r] && RootOf(t.uf, depth, t.repOf[r]) == r
  }

  /** A forest root y represents its own component. */
  ghost predicate ForestRootOk(t: Tree, depth: seq<nat>, y: int)
    requires FindReady(t, depth)
  {
    0 <= y < t.n * t.m && Contains(t, y) && t.parent[y] == y ==>
      0 <= RootOf(t.uf, depth, y) < |t.repOf| && t.repOf[RootOf(t.uf, depth, y)] == y
  }

  /** The forest parent of a cell is a cell of the same component. */
  ghost predicate ParentOk(t: Tree, depth: seq<nat>, y: int)
    requires FindReady(t, depth)
  {
    0 <= y < t.n * t.m && Contains(t, y) ==>
      && 0 <= t.parent[y] < t.n * t.m && Contains(t, t.parent[y])
      && RootOf(t.uf, depth, t.parent[y]) == RootOf(t.uf, depth, y)
  }

  /** Two adjacent cells of the tree share a component. */
  ghost predicate JoinedAt(t: Tree, depth: seq<nat>, a: int, b: int)
    requires FindReady(t, depth) && t.n > 0
  {
    && 0 <= a < t.n * t.m && 0 <= b < t.n * t.m
    && Contains(t, a) && Contains(t, b) && ProperAdjacent(t.n, a, b)
    ==> RootOf(t.uf, depth, a) == RootOf(t.uf, depth, b)
  }

  /** The p-th inserted cell is flagged a leaf exactly when none of its
      8-neighbours was inserted before it. */
  ghost predicate LeafOk(t: Tree, p: int)
    requires |t.order| == |t.leaf| == t.n * t.m && t.n > 0
    requires forall k :: 0 <= k < |t.order| ==> 0 <= t.order[k] < t.n * t.m
  {
    0 <= p < t.next && p < |t.order| ==>
      (t.leaf[t.order[p]] <==> forall q :: 0 <= q < p ==> !ProperAdjacent(t.n, t.order[p], t.order[q]))
  }

  /** The most recently inserted cell is its own forest parent. */
  ghost predicate LatestIsRoot(t: Tree)
  {
    0 < t.next <= |t.order| ==>
      0 <= t.order[t.next - 1] < |t.parent| && t.parent[t.order[t.next - 1]] == t.order[t.next - 1]
  }

  /** The cells of the tree in the component with union-find root r. */
  ghost function Component(t: Tree, depth: seq<nat>, r: int): set<int>
    requires FindReady(t, depth)
  {
    set y | 0 <= y < t.n * t.m && Contains(t, y) && RootOf(t.uf, depth, y) == r
  }

  /** The size kept at the representative of a union-find root counts the
      cells of its component. */
  ghost predicate SizeOk(t: Tree, depth: seq<nat>, r: int)
    requires StepReady(t, depth)
  {
    Linked(t.uf, r) && t.uf[r] == r ==> t.size[t.repOf[r]] == |Component(t, depth, r)|
  }

  /** A walk through the tree joins every cell of the tree to its union-find
      root. */
  ghost predicate RootReach(t: Tree, depth: seq<nat>, y: int)
    requires FindReady(t, depth) && t.n > 0
  {
    0 <= y < t.n * t.m && Contains(t, y) ==> Reach(t, y, RootOf(t.uf, depth, y))
  }

  /** The forest parent of the p-th inserted cell, unless it is the cell
      itself, was inserted after it. */
  ghost predicate ParentLater(t: Tree, p: int)
  {
    (0 <= p < t.next <= |t.order| && 0 <= t.order[p] < |t.parent| && t.parent[t.order[p]] != t.order[p])
      ==> t.parent[t.order[p]] in t.order[p + 1..t.next]
  }

  /** Representatives, forest parents and adjacency, cell by cell. */
  ghost predicate ForestOk(t: Tree, depth: seq<nat>)
    requires StepReady(t, depth)
  {
    && (forall r {:trigger RepOk(t, depth, r)} :: RepOk(t, depth, r))
    && (forall y {:trigger ForestRootOk(t, depth, y)} :: ForestRootOk(t, depth, y))
    && (forall y {:trigger ParentOk(t, depth, y)} :: ParentOk(t, depth, y))
    && (forall a, b {:trigger JoinedAt(t, depth, a, b)} :: JoinedAt(t, depth, a, b))
  }

  /** Sizes, connectivity, parent order and leaf history, cell by cell. */
  ghost predicate HistoryOk(t: Tree, depth: seq<nat>)
    requires StepReady(t, depth)
  {
    && (forall r {:trigger SizeOk(t, depth, r)} :: SizeOk(t, depth, r))
    && (forall y {:trigger RootReach(t, depth, y)} :: RootReach(t, depth, y))
    && (forall p {:trigger ParentLater(t, p)} :: ParentLater(t, p))
    && (forall p {:trigger LeafOk(t, p)} :: LeafOk(t, p))
  }

  /** The invariant between insertions. */
  ghost predicate Valid(t: Tree, depth: seq<nat>)
  {
    && StepReady(t, depth) && OrderOk(t)
    && (forall y :: 0 <= y < t.n * t.m ==> (Contains(t, y) <==> y in t.order[..t.next]))
    && ForestOk(t, depth) && HistoryOk(t, depth)
    && t.nComps == |ForestRoots(t)|
    && LatestIsRoot(t)
  }

  // ---------------------------------------------------------------------
  // Preservation, for any pair of states related as one step relates them

  /** The tree after a step holds the cells before it and the new cell v. */
  ghost predicate ContainsFact(t: Tree, t': Tree, v: int)
    requires |t.parent| == |t'.parent| == t.n * t.m == t'.n * t'.m
  {
    forall y :: 0 <= y < t.n * t.m ==> (Contains(t', y) <==> Contains(t, y) || y == v)
  }

  /** The representative of an adjacent component is a forest root of it. */
  lemma RepOfAdjacent(t: Tree, d: seq<nat>, v: int, rs: seq<int>, w: int, y: int)
    requires Valid(t, d) && RootsFact(t, d, v, rs, w) && y in Reps(t, rs)
    ensures 0 <= y < t.n * t.m && Contains(t, y) && t.parent[y] == y && y != v
    ensures Linked(t.uf, y) && RootOf(t.uf, d, y) in rs
  {
    var r :| r in rs && y == t.repOf[r];
    assert RepOk(t, d, r);
  }

  lemma ContainsAfter(t: Tree, d: seq<nat>, t': Tree, v: int, rs: seq<int>, w: int)
    requires Valid(t, d) && RootsFact(t, d, v, rs, w)
    requires FieldsFact(t, t', v, rs, w) && ParentsFact(t, t', v, rs)
    ensures ContainsFact(t, t', v)
  {
    forall y | y in Reps(t, rs) ensures Contains(t, y) {
      RepOfAdjacent(t, d, v, rs, w, y);
    }
  }

  lemma MembersAfter(t: Tree, d: seq<nat>, t': Tree, v: int, rs: seq<int>, w: int)
    requires Valid(t, d) && RootsFact(t, d, v, rs, w) && FieldsFact(t, t', v, rs, w)
    requires ContainsFact(t, t', v)
    ensures forall y :: 0 <= y < t.n * t.m ==> (Contains(t', y) <==> y in t'.order[..t'.next])
  {
    var pre := t.order[..t.next];
    assert t'.order[..t'.next] == pre + [v];
    forall y | 0 <= y < t.n * t.m ensures Contains(t', y) <==> y in pre + [v] {
      assert Contains(t, y) <==> y in pre;
    }
  }

  /** The order is duplicate-free. */
  lemma OrderNoDup(t: Tree)
    requires OrderOk(t)
    ensures NoDup(t.order)
  {
    CoveringIsNoDup(t.order, t.n * t.m);
  }

  lemma ReadyAfter(t: Tree, d: seq<nat>, t': Tree, d': seq<nat>, v: int, rs: seq<int>, w: int)
    requires Valid(t, d) && RootsFact(t, d, v, rs, w) && FieldsFact(t, t', v, rs, w)
    requires FlagsFact(t, t', v, rs, w) && ForestFact(t, t', d', v, rs, w)
    requires ContainsFact(t, t', v)
    requires forall y :: 0 <= y < t.n * t.m ==> (Contains(t', y) <==> y in t'.order[..t'.next])
    ensures StepReady(t', d') && OrderOk(t')
  {
    assert Shaped(t');
    forall y | 0 <= y < |t'.uf| ensures Contains(t', y) <==> Linked(t'.uf, y) {
      assert Contains(t, y) <==> Linked(t.uf, y);
    }
    forall y | 0 <= y < t.n * t.m ensures t'.isRoot[y] <==> Linked(t'.uf, y) && t'.uf[y] == y {
      if y in rs {
        assert Linked(t.uf, y);
      }
    }
    forall r | Linked(t'.uf, r) && t'.uf[r] == r ensures 0 <= t'.repOf[r] < t.n * t.m {
      if r != w {
        assert r !in rs && r != v;
        assert Linked(t.uf, r) && t.uf[r] == r;
      }
    }
    OrderNoDup(t);
  }

  /** What the per-cell preservation lemmas below assume: a valid state t, a
      state t' that one step relates to it, and t' ready for the next step. */
  ghost predicate Related(t: Tree, d: seq<nat>, t': Tree, d': seq<nat>, v: int, rs: seq<int>, w: int)
  {
    && Valid(t, d) && RootsFact(t, d, v, rs, w) && FieldsFact(t, t', v, rs, w)
    && ParentsFact(t, t', v, rs) && FlagsFact(t, t', v, rs, w) && ForestFact(t, t', d', v, rs, w)
    && ContainsFact(t, t', v) && StepReady(t', d')
    && forall y {:trigger RootFact(t, d, t', d', v, rs, w, y)} :: RootFact(t, d, t', d', v, rs, w, y)
  }

  /** A representative absorbed by the step belongs to one of the merged
      roots; any other forest root keeps its parent. */
  lemma NotAbsorbed(t: Tree, d: seq<nat>, v: int, rs: seq<int>, w: int, y: int)
    requires Valid(t, d) && RootsFact(t, d, v, rs, w)
    requires 0 <= y < t.n * t.m && Contains(t, y) && Linked(t.uf, y)
    requires RootOf(t.uf, d, y) !in rs
    ensures y !in Reps(t, rs)
  {
    if y in Reps(t, rs) {
      RepOfAdjacent(t, d, v, rs, w, y);
    }
  }

  lemma RepAfter(t: Tree, d: seq<nat>, t': Tree, d': seq<nat>, v: int, rs: seq<int>, w: int, r: int)
    requires Related(t, d, t', d', v, rs, w)
    ensures RepOk(t', d', r)
  {
    if Linked(t'.uf, r) && t'.uf[r] == r {
      if r == w {
        assert RootFact(t, d, t', d', v, rs, w, v);
      } else {
        assert r !in rs && r != v;
        assert Linked(t.uf, r) && t.uf[r] == r;
        assert RepOk(t, d, r);
        var rep := t.repOf[r];
        assert Linked(t.uf, rep);
        NotAbsorbed(t, d, v, rs, w, rep);
        assert RootFact(t, d, t', d', v, rs, w, rep);
      }
    }
  }

  lemma ForestRootAfter(t: Tree, d: seq<nat>, t': Tree, d': seq<nat>, v: int, rs: seq<int>, w: int, y: int)
    requires Related(t, d, t', d', v, rs, w)
    ensures ForestRootOk(t', d', y)
  {
    if 0 <= y < t.n * t.m && Contains(t', y) && t'.parent[y] == y {
      assert RootFact(t, d, t', d', v, rs, w, y);
      if y != v {
        assert Contains(t, y) && Linked(t.uf, y);
        assert ForestRootOk(t, d, y);
        assert RootOf(t.uf, d, y) != v;
      }
    }
  }

  lemma ParentAfter(t: Tree, d: seq<nat>, t': Tree, d': seq<nat>, v: int, rs: seq<int>, w: int, y: int)
    requires Related(t, d, t', d', v, rs, w)
    ensures ParentOk(t', d', y)
  {
    if 0 <= y < t.n * t.m && Contains(t', y) {
      assert RootFact(t, d, t', d', v, rs, w, y);
      assert RootFact(t, d, t', d', v, rs, w, v);
      if y != v {
        assert Contains(t, y) && Linked(t.uf, y);
        if y in Reps(t, rs) {
          RepOfAdjacent(t, d, v, rs, w, y);
        } else {
          assert ParentOk(t, d, y);
          var p := t.parent[y];
          assert Linked(t.uf, p) && p != v;
          assert RootFact(t, d, t', d', v, rs, w, p);
        }
      }
    }
  }

  /** Adjacency is symmetric. */
  lemma ProperAdjacentSym(n: int, a: int, b: int)
    requires n > 0 && ProperAdjacent(n, a, b)
    ensures ProperAdjacent(n, b, a)
  {
  }

  /** A cell of the tree adjacent to the new cell is now in the winner's component. */
  lemma JoinedToNew(t: Tree, d: seq<nat>, t': Tree, d': seq<nat>, v: int, rs: seq<int>, w: int, b: int)
    requires Related(t, d, t', d', v, rs, w)
    requires 0 <= b < t.n * t.m && Contains(t, b) && ProperAdjacent(t.n, v, b)
    ensures Linked(t'.uf, b) && Linked(t'.uf, v) && RootOf(t'.uf, d', b) == RootOf(t'.uf, d', v)
  {
    assert Linked(t.uf, b);
    assert RootOf(t.uf, d, b) in AdjacentComponents(t, d, v);
    assert RootOf(t.uf, d, b) in Elems(rs);
    assert RootFact(t, d, t', d', v, rs, w, b);
    assert RootFact(t, d, t', d', v, rs, w, v);
  }

  lemma JoinedAfter(t: Tree, d: seq<nat>, t': Tree, d': seq<nat>, v: int, rs: seq<int>, w: int, a: int, b: int)
    requires Related(t, d, t', d', v, rs, w)
    ensures JoinedAt(t', d', a, b)
  {
    if && 0 <= a < t.n * t.m && 0 <= b < t.n * t.m
       && Contains(t', a) && Contains(t', b) && ProperAdjacent(t.n, a, b) {
      if a == v {
        JoinedToNew(t, d, t', d', v, rs, w, b);
      } else if b == v {
        ProperAdjacentSym(t.n, a, b);
        JoinedToNew(t, d, t', d', v, rs, w, a);
      } else {
        assert Linked(t.uf, a) && Linked(t.uf, b);
        assert JoinedAt(t, d, a, b);
        assert RootFact(t, d, t', d', v, rs, w, a);
        assert RootFact(t, d, t', d', v, rs, w, b);
      }
    }
  }

  /** The new cell is a leaf exactly when no 8-neighbour precedes it. */
  lemma NewLeaf(t: Tree, d: seq<nat>, t': Tree, d': seq<nat>, v: int, rs: seq<int>, w: int)
    requires Related(t, d, t', d', v, rs, w)
    ensures |rs| == 0 <==> forall q :: 0 <= q < t.next ==> !ProperAdjacent(t.n, v, t.order[q])
  {
    if |rs| != 0 {
      assert rs[0] in Elems(rs);
      var c :| 0 <= c < |t.uf| && Contains(t, c) && ProperAdjacent(t.n, v, c) && rs[0] == RootOf(t.uf, d, c);
      assert c in t.order[..t.next];
      var q :| 0 <= q < t.next && t.order[q] == c;
    }
    if exists q :: 0 <= q < t.next && ProperAdjacent(t.n, v, t.order[q]) {
      var q :| 0 <= q < t.next && ProperAdjacent(t.n, v, t.order[q]);
      var c := t.order[q];
      assert c in t.order[..t.next];
      assert Contains(t, c) && Linked(t.uf, c);
      assert RootOf(t.uf, d, c) in AdjacentComponents(t, d, v);
      assert RootOf(t.uf, d, c) in Elems(rs);
    }
  }

  lemma LeafAfter(t: Tree, d: seq<nat>, t': Tree, d': seq<nat>, v: int, rs: seq<int>, w: int, p: int)
    requires Related(t, d, t', d', v, rs, w)
    ensures LeafOk(t', p)
  {
    if 0 <= p < t.next {
      assert LeafOk(t, p);
      OldLeaf(t, t', v, rs, w, p);
    } else if p == t.next {
      NewLeaf(t, d, t', d', v, rs, w);
    }
  }

  /** A cell inserted before keeps its leaf flag. */
  lemma OldLeaf(t: Tree, t': Tree, v: int, rs: seq<int>, w: int, p: int)
    requires OrderOk(t) && FieldsFact(t, t', v, rs, w)
    requires 0 <= p < t.next < |t.order| && v == t.order[t.next]
    requires |t.leaf| == t.n * t.m && t.n > 0
    requires forall k :: 0 <= k < |t.order| ==> 0 <= t.order[k] < t.n * t.m
    requires LeafOk(t, p)
    ensures LeafOk(t', p)
  {
    OrderNoDup(t);
    assert t.order[p] != v;
  }

  /** Distinct roots have distinct representatives. */
  lemma RepsCard(t: Tree, d: seq<nat>, ks: seq<int>)
    requires Valid(t, d) && NoDup(ks) && RootsInRange(t, ks)
    requires forall k :: k in ks ==> Linked(t.uf, k) && t.uf[k] == k
    ensures |Reps(t, ks)| == |ks|
  {
    forall a, b | a in ks && b in ks && t.repOf[a] == t.repOf[b] ensures a == b {
      assert RepOk(t, d, a) && RepOk(t, d, b);
    }
    assert Reps(t, ks) == Image(ks, t.repOf);
    ImageCard(ks, t.repOf);
  }

  /** A step replaces the representatives of the merged components by the
      new cell among the forest roots. */
  lemma ForestRootsAfter(t: Tree, d: seq<nat>, t': Tree, d': seq<nat>, v: int, rs: seq<int>, w: int)
    requires Related(t, d, t', d', v, rs, w)
    ensures Reps(t, rs) <= ForestRoots(t) && v !in ForestRoots(t)
    ensures ForestRoots(t') == (ForestRoots(t) - Reps(t, rs)) + {v}
  {
    forall y | y in Reps(t, rs) ensures y in ForestRoots(t) && y != v {
      RepOfAdjacent(t, d, v, rs, w, y);
    }
  }

  /** The component count follows the forest roots. */
  lemma CountAfter(t: Tree, d: seq<nat>, t': Tree, d': seq<nat>, v: int, rs: seq<int>, w: int)
    requires Related(t, d, t', d', v, rs, w)
    ensures t'.nComps == |ForestRoots(t')|
  {
    ForestRootsAfter(t, d, t', d', v, rs, w);
    RepsCard(t, d, rs);
    ReplaceCard(ForestRoots(t), Reps(t, rs), v);
    assert t'.nComps == t.nComps + 1 - |rs|;
  }

  /** Replacing a subset by one fresh element. */
  lemma ReplaceCard(s: set<int>, sub: set<int>, v: int)
    requires sub <= s && v !in s
    ensures |(s - sub) + {v}| == |s| - |sub| + 1
  {
    assert s == (s - sub) + sub;
  }

  /** Under ready root finding the component of r is the union-find class of r. */
  lemma ComponentMembers(t: Tree, d: seq<nat>, r: int)
    requires FindReady(t, d)
    ensures Component(t, d, r) == Members(t.uf, d, r)
  {
  }

  /** The new cell is not linked before the step. */
  lemma NewUnlinked(t: Tree, d: seq<nat>, t': Tree, d': seq<nat>, v: int, rs: seq<int>, w: int)
    requires Related(t, d, t', d', v, rs, w)
    ensures !Linked(t.uf, v) && v !in MembersOf(t.uf, d, rs)
  {
    assert !Contains(t, v);
  }

  /** The step merges union-find classes as a merge does. */
  lemma RelatedMerged(t: Tree, d: seq<nat>, t': Tree, d': seq<nat>, v: int, rs: seq<int>, w: int)
    requires Related(t, d, t', d', v, rs, w)
    ensures MergedFrom(t.uf, d, t'.uf, d', v, rs, w)
  {
    NewUnlinked(t, d, t', d', v, rs, w);
    forall y | Linked(t'.uf, y)
      ensures RootOf(t'.uf, d', y) == if y == v || RootOf(t.uf, d, y) in rs then w else RootOf(t.uf, d, y)
    {
      assert RootFact(t, d, t', d', v, rs, w, y);
    }
  }

  /** The merged sizes count the cells of the merged classes. */
  lemma MergedSizes(t: Tree, d: seq<nat>, v: int, rs: seq<int>, w: int)
    requires Valid(t, d) && RootsFact(t, d, v, rs, w)
    ensures Sum(Sizes(t, rs)) == |MembersOf(t.uf, d, rs)|
  {
    var sz := Sizes(t, rs);
    forall i | 0 <= i < |rs| ensures sz[i] == |Members(t.uf, d, rs[i])| {
      assert rs[i] in rs;
      assert SizeOk(t, d, rs[i]);
      ComponentMembers(t, d, rs[i]);
    }
    MembersOfCard(t.uf, d, rs, sz);
  }

  lemma SizeAfter(t: Tree, d: seq<nat>, t': Tree, d': seq<nat>, v: int, rs: seq<int>, w: int, r: int)
    requires Related(t, d, t', d', v, rs, w)
    ensures SizeOk(t', d', r)
  {
    if Linked(t'.uf, r) && t'.uf[r] == r {
      RelatedMerged(t, d, t', d', v, rs, w);
      ComponentMembers(t', d', r);
      if r == w {
        WinnerSize(t, d, t', d', v, rs, w);
      } else {
        KeptSize(t, d, t', d', v, rs, w, r);
      }
    }
  }

  /** The winner's class is the new cell plus every merged class, and its
      size, now kept at the new cell, counts exactly those cells. */
  lemma WinnerSize(t: Tree, d: seq<nat>, t': Tree, d': seq<nat>, v: int, rs: seq<int>, w: int)
    requires Related(t, d, t', d', v, rs, w) && MergedFrom(t.uf, d, t'.uf, d', v, rs, w)
    ensures t'.size[t'.repOf[w]] == |Members(t'.uf, d', w)|
  {
    MergedClass(t.uf, d, t'.uf, d', v, rs, w);
    MergedSizes(t, d, v, rs, w);
    assert t'.repOf[w] == v && t'.size[v] == 1 + Sum(Sizes(t, rs));
  }

  /** A root the step leaves alone keeps its representative, its size and its class. */
  lemma KeptSize(t: Tree, d: seq<nat>, t': Tree, d': seq<nat>, v: int, rs: seq<int>, w: int, r: int)
    requires Related(t, d, t', d', v, rs, w) && MergedFrom(t.uf, d, t'.uf, d', v, rs, w)
    requires Linked(t'.uf, r) && t'.uf[r] == r && r != w
    ensures t'.size[t'.repOf[r]] == |Members(t.uf, d, r)|
    ensures Members(t'.uf, d', r) == Members(t.uf, d, r)
  {
    assert r !in rs && r != v;
    assert Linked(t.uf, r) && t.uf[r] == r;
    assert SizeOk(t, d, r) && RepOk(t, d, r);
    ComponentMembers(t, d, r);
    KeptClass(t.uf, d, t'.uf, d', v, rs, w, r);
    assert t'.repOf[r] == t.repOf[r] != v;
  }

  lemma ParentLaterAfter(t: Tree, d: seq<nat>, t': Tree, d': seq<nat>, v: int, rs: seq<int>, w: int, p: int)
    requires Related(t, d, t', d', v, rs, w)
    ensures ParentLater(t', p)
  {
    OrderNoDup(t);
    assert ParentLater(t, p);
    LaterKept(t, t', v, rs, p);
  }

  /** Forest parents set by a step point at the new cell, the latest of the
      order, so every parent stays later in the order than its child. */
  lemma LaterKept(t: Tree, t': Tree, v: int, rs: seq<int>, p: int)
    requires ParentsFact(t, t', v, rs) && t'.order == t.order && NoDup(t.order)
    requires t.next < |t.order| && t'.next == t.next + 1 && v == t.order[t.next]
    requires forall k :: 0 <= k < |t.order| ==> 0 <= t.order[k] < t.n * t.m
    requires ParentLater(t, p)
    ensures ParentLater(t', p)
  {
    if 0 <= p < t.next {
      var y := t.order[p];
      assert y != v;
      assert t'.order[p + 1..t'.next] == t.order[p + 1..t.next] + [v];
    }
  }

  /** A walk of the state before the step, from a cell to its old root,
      read in the state after it. */
  lemma OldWalk(t: Tree, d: seq<nat>, t': Tree, d': seq<nat>, v: int, rs: seq<int>, w: int, y: int)
    returns (q: seq<int>)
    requires Related(t, d, t', d', v, rs, w)
    requires 0 <= y < t.n * t.m && Contains(t, y)
    ensures Linked(t.uf, y) && WalkFrom(t', q, y, RootOf(t.uf, d, y))
  {
    assert RootReach(t, d, y);
    q :| WalkFrom(t, q, y, RootOf(t.uf, d, y));
    WalkGrows(t, t', q, y, RootOf(t.uf, d, y));
  }

  /** A cell of the tree adjacent to the new cell in the component of a
      merged root. */
  lemma AdjacentCell(t: Tree, d: seq<nat>, v: int, rs: seq<int>, w: int, r: int) returns (c: int)
    requires Valid(t, d) && RootsFact(t, d, v, rs, w) && r in rs
    ensures 0 <= c < t.n * t.m && Contains(t, c) && ProperAdjacent(t.n, v, c)
    ensures Linked(t.uf, c) && RootOf(t.uf, d, c) == r
  {
    assert r in Elems(rs);
    c :| 0 <= c < |t.uf| && Contains(t, c) && ProperAdjacent(t.n, v, c) && r == RootOf(t.uf, d, c);
  }

  /** After the step a walk joins the new cell to the winner. */
  lemma WalkToWinner(t: Tree, d: seq<nat>, t': Tree, d': seq<nat>, v: int, rs: seq<int>, w: int)
    returns (p: seq<int>)
    requires Related(t, d, t', d', v, rs, w)
    ensures WalkFrom(t', p, v, w)
  {
    WalkSingle(t', v);
    if w == v {
      p := [v];
    } else {
      var c := AdjacentCell(t, d, v, rs, w, w);
      var q := OldWalk(t, d, t', d', v, rs, w, c);
      WalkCat(t', [v], q, v, v, c, w);
      p := [v] + q;
    }
  }

  lemma RootReachAfter(t: Tree, d: seq<nat>, t': Tree, d': seq<nat>, v: int, rs: seq<int>, w: int, y: int)
    requires Related(t, d, t', d', v, rs, w)
    ensures RootReach(t', d', y)
  {
    if 0 <= y < t.n * t.m && Contains(t', y) {
      assert RootFact(t, d, t', d', v, rs, w, y);
      var pw := WalkToWinner(t, d, t', d', v, rs, w);
      if y != v {
        var py := OldWalk(t, d, t', d', v, rs, w, y);
        var r := RootOf(t.uf, d, y);
        if r in rs {
          var c := AdjacentCell(t, d, v, rs, w, r);
          var pc := OldWalk(t, d, t', d', v, rs, w, c);
          WalkRev(t', pc, c, r);
          WalkCat(t', py, Rev(pc), y, r, r, c);
          WalkCat(t', py + Rev(pc), pw, y, c, v, w);
          assert WalkFrom(t', py + Rev(pc) + pw, y, RootOf(t'.uf, d', y));
        } else {
          assert WalkFrom(t', py, y, RootOf(t'.uf, d', y));
        }
      } else {
        assert WalkFrom(t', pw, y, RootOf(t'.uf, d', y));
      }
    }
  }

  /** The invariant is preserved by every pair of states one step relates. */
  lemma ValidAfter(t: Tree, d: seq<nat>, t': Tree, d': seq<nat>, v: int, rs: seq<int>, w: int)
    requires Related(t, d, t', d', v, rs, w)
    requires forall y :: 0 <= y < t.n * t.m ==> (Contains(t', y) <==> y in t'.order[..t'.next])
    requires OrderOk(t')
    ensures Valid(t', d')
  {
    ForestAfter(t, d, t', d', v, rs, w);
    HistoryAfter(t, d, t', d', v, rs, w);
    CountAfter(t, d, t', d', v, rs, w);
    LatestAfter(t, d, t', d', v, rs, w);
    ValidOfParts(t', d');
  }

  /** The invariant from its parts. */
  lemma ValidOfParts(t: Tree, d: seq<nat>)
    requires StepReady(t, d) && OrderOk(t)
    requires forall y :: 0 <= y < t.n * t.m ==> (Contains(t, y) <==> y in t.order[..t.next])
    requires ForestOk(t, d) && HistoryOk(t, d)
    requires t.nComps == |ForestRoots(t)| && LatestIsRoot(t)
    ensures Valid(t, d)
  {
  }

  /** The cell a step inserts is the latest and a forest root. */
  lemma LatestAfter(t: Tree, d: seq<nat>, t': Tree, d': seq<nat>, v: int, rs: seq<int>, w: int)
    requires Related(t, d, t', d', v, rs, w)
    ensures LatestIsRoot(t')
  {
    assert t'.order[t'.next - 1] == v;
  }

  lemma ForestAfter(t: Tree, d: seq<nat>, t': Tree, d': seq<nat>, v: int, rs: seq<int>, w: int)
    requires Related(t, d, t', d', v, rs, w)
    ensures ForestOk(t', d')
  {
    forall r ensures RepOk(t', d', r) {
      RepAfter(t, d, t', d', v, rs, w, r);
    }
    forall y ensures ForestRootOk(t', d', y) {
      ForestRootAfter(t, d, t', d', v, rs, w, y);
    }
    forall y ensures ParentOk(t', d', y) {
      ParentAfter(t, d, t', d', v, rs, w, y);
    }
    forall a, b ensures JoinedAt(t', d', a, b) {
      JoinedAfter(t, d, t', d', v, rs, w, a, b);
    }
  }

  lemma HistoryAfter(t: Tree, d: seq<nat>, t': Tree, d': seq<nat>, v: int, rs: seq<int>, w: int)
    requires Related(t, d, t', d', v, rs, w)
    ensures HistoryOk(t', d')
  {
    forall r ensures SizeOk(t', d', r) {
      SizeAfter(t, d, t', d', v, rs, w, r);
    }
    forall y ensures RootReach(t', d', y) {
      RootReachAfter(t, d, t', d', v, rs, w, y);
    }
    forall p ensures ParentLater(t', p) {
      ParentLaterAfter(t, d, t', d', v, rs, w, p);
    }
    forall p ensures LeafOk(t', p) {
      LeafAfter(t, d, t', d', v, rs, w, p);
    }
  }

  /** In a state satisfying the invariant the tree holds exactly the first
      `next` cells of the order, every id outside the grid answers false,
      and `len` counts the cells of the tree. */
  lemma Membership(t: Tree, d: seq<nat>)
    requires Valid(t, d)
    ensures forall y :: Contains(t, y) <==> y in t.order[..t.next]
    ensures forall y :: !InGrid(t.n, t.m, y) ==> !Contains(t, y)
    ensures Len(t) == |set y | 0 <= y < t.n * t.m && Contains(t, y)|
  {
    var pre := t.order[..t.next];
    forall y | y in pre ensures 0 <= y < t.n * t.m {
      var k :| 0 <= k < |pre| && pre[k] == y;
      assert t.order[k] == y;
    }
    assert (set y | 0 <= y < t.n * t.m && Contains(t, y)) == Elems(pre);
    OrderNoDup(t);
    assert NoDup(pre);
    NoDupCard(pre);
  }

  /** A root's representative is the most recently inserted cell of its
      component: it belongs to the component, and it comes at or after the
      position in the order of every cell of the component. */
  lemma RepIsLatest(t: Tree, d: seq<nat>, r: int)
    requires Valid(t, d) && Linked(t.uf, r) && t.uf[r] == r
    ensures t.repOf[r] in Component(t, d, r)
    ensures forall p :: 0 <= p < t.next && t.order[p] in Component(t, d, r) ==>
      t.repOf[r] in t.order[p..t.next]
  {
    assert RepOk(t, d, r);
    forall p | 0 <= p < t.next && t.order[p] in Component(t, d, r)
      ensures t.repOf[r] in t.order[p..t.next]
    {
      RepAtOrAfter(t, d, r, p);
    }
  }

  /** Following forest parents from a cell of the component, which sit ever
      later in the order, ends at the representative. */
  lemma {:induction false} RepAtOrAfter(t: Tree, d: seq<nat>, r: int, p: int)
    requires Valid(t, d) && Linked(t.uf, r) && t.uf[r] == r
    requires 0 <= p < t.next && t.order[p] in Component(t, d, r)
    ensures t.repOf[r] in t.order[p..t.next]
    decreases t.next - p
  {
    var y := t.order[p];
    assert ForestRootOk(t, d, y);
    assert ParentOk(t, d, y);
    assert ParentLater(t, p);
    if t.parent[y] != y {
      var z := t.parent[y];
      var q :| p + 1 <= q < t.next && t.order[q] == z;
      assert z in Component(t, d, r);
      RepAtOrAfter(t, d, r, q);
      assert t.order[q..t.next] == t.order[p..t.next][q - p..];
    }
  }

  /** One insertion `bfalg_add` preserves the invariant. */
  lemma StepValid(t: Tree, d: seq<nat>)
    requires Valid(t, d)
    ensures Valid(Step(t, d), NextDepth(t, d))
  {
    if t.next < t.n * t.m {
      var t', d', v, rs, w := Step(t, d), NextDepth(t, d), NextCell(t), StepRoots(t, d), StepWinner(t, d);
      StepFacts(t, d);
      ContainsAfter(t, d, t', v, rs, w);
      MembersAfter(t, d, t', v, rs, w);
      ReadyAfter(t, d, t', d', v, rs, w);
      ValidAfter(t, d, t', d', v, rs, w);
    }
  }

  // ---------------------------------------------------------------------
  // Components as connected sets

  /** Along a walk the union-find root does not change. */
  lemma {:induction false} WalkSameRoot(t: Tree, d: seq<nat>, p: seq<int>, a: int, b: int)
    requires Valid(t, d) && WalkFrom(t, p, a, b)
    ensures Linked(t.uf, a) && Linked(t.uf, b) && RootOf(t.uf, d, a) == RootOf(t.uf, d, b)
    decreases |p|
  {
    if |p| == 1 {
      assert Contains(t, a);
    } else {
      var q := p[1..];
      assert WalkFrom(t, q, p[1], b);
      WalkSameRoot(t, d, q, p[1], b);
      assert Contains(t, a) && Adjacent(t.n, p[0], p[1]);
      assert JoinedAt(t, d, a, p[1]);
    }
  }

  /** In a valid state two cells of the tree have the same union-find root
      exactly when a walk through the tree joins them: the union-find
      classes are the connected components of the cells inserted so far. */
  lemma SameRootIffReach(t: Tree, d: seq<nat>, a: int, b: int)
    requires Valid(t, d)
    requires 0 <= a < t.n * t.m && 0 <= b < t.n * t.m && Contains(t, a) && Contains(t, b)
    ensures Linked(t.uf, a) && Linked(t.uf, b)
    ensures RootOf(t.uf, d, a) == RootOf(t.uf, d, b) <==> Reach(t, a, b)
  {
    if Reach(t, a, b) {
      var p :| WalkFrom(t, p, a, b);
      WalkSameRoot(t, d, p, a, b);
    }
    var r := RootOf(t.uf, d, a);
    if RootOf(t.uf, d, b) == r {
      assert RootReach(t, d, a) && RootReach(t, d, b);
      var pa :| WalkFrom(t, pa, a, r);
      var pb :| WalkFrom(t, pb, b, r);
      WalkRev(t, pb, b, r);
      WalkCat(t, pa, Rev(pb), a, r, r, b);
      assert WalkFrom(t, pa + Rev(pb), a, b);
    }
  }

  /** Two neighbours of v in different union-find classes are two neighbours
      no walk through the tree joins. */
  lemma SplitsIffDisconnects(t: Tree, d: seq<nat>, v: int)
    requires Valid(t, d)
    ensures Splits(t, d, v) <==> Disconnects(t, v)
  {
    if Splits(t, d, v) {
      var a, b :| 0 <= a < |t.uf| && 0 <= b < |t.uf| && Contains(t, a) && Contains(t, b)
        && ProperAdjacent(t.n, v, a) && ProperAdjacent(t.n, v, b)
        && RootOf(t.uf, d, a) != RootOf(t.uf, d, b);
      SameRootIffReach(t, d, a, b);
    }
    if Disconnects(t, v) {
      var a, b :| 0 <= a < t.n * t.m && 0 <= b < t.n * t.m && Contains(t, a) && Contains(t, b)
        && ProperAdjacent(t.n, v, a) && ProperAdjacent(t.n, v, b) && !Reach(t, a, b);
      SameRootIffReach(t, d, a, b);
    }
  }

  /** The bifurcation flag `bfalg_add` records for the inserted cell: two of
      its 8-neighbours are in the tree and no walk through the tree joins
      them, so the cell joins two or more components. */
  lemma StepBifurcation(t: Tree, d: seq<nat>)
    requires Valid(t, d) && t.next < t.n * t.m
    ensures |Step(t, d).bifurcation| == t.n * t.m && InGrid(t.n, t.m, NextCell(t))
    ensures Step(t, d).bifurcation[NextCell(t)] <==> Disconnects(t, NextCell(t))
  {
    StepClassify(t, d);
    SplitsIffDisconnects(t, d, NextCell(t));
  }

  /** The winner of a step is the first adjacent root whose component has
      the most cells, as the recorded sizes promise. */
  lemma WinnerIsLargest(t: Tree, d: seq<nat>)
    requires Valid(t, d) && t.next < t.n * t.m
    ensures var rs, w := StepRoots(t, d), StepWinner(t, d);
      && (|rs| == 0 ==> w == NextCell(t))
      && (|rs| > 0 ==> w in rs)
      && forall k :: 0 <= k < |rs| && rs[k] == w ==>
           && (forall i :: 0 <= i < |rs| ==> |Component(t, d, rs[i])| <= |Component(t, d, rs[k])|)
           && (forall i :: 0 <= i < k ==> |Component(t, d, rs[i])| < |Component(t, d, rs[k])|)
  {
    var rs := StepRoots(t, d);
    forall i | 0 <= i < |rs| ensures Sizes(t, rs)[i] == |Component(t, d, rs[i])| {
      assert rs[i] in rs;
      assert SizeOk(t, d, rs[i]);
    }
  }
}

=== FILE: js_step.dfy ===
/**
 One insertion of the tree builder, seen from outside: which components the
 new cell joins, and how every array of the state changes.
 */
module JsStep {
  import opened Grid
  import opened UnionFind
  import opened SeqUtil
  import opened JsTree

  /** The components adjacent to v: the roots of the contained proper
      8-neighbours of v. */
  ghost function AdjacentComponents(t: Tree, depth: seq<nat>, v: int): set<int>
    requires FindReady(t, depth) && t.n > 0
  {
    set c | 0 <= c < |t.uf| && Contains(t, c) && ProperAdjacent(t.n, v, c) :: RootOf(t.uf, depth, c)
  }

  /** The cell inserted by the next step. */
  function NextCell(t: Tree): int
    requires t.next < |t.order|
  {
    t.order[t.next]
  }

  /** The adjacent roots found by the next step, in `find_adj` order. */
  ghost function StepRoots(t: Tree, depth: seq<nat>): (rs: seq<int>)
    requires StepReady(t, depth) && t.next < t.n * t.m
    ensures NoDup(rs) && RootsInRange(t, rs) && NextCell(t) !in rs
    ensures forall r :: r in rs ==> Linked(t.uf, r) && t.uf[r] == r
  {
    Gather(t, depth).0
  }

  /** The union-find root of the merged component after the next step. */
  ghost function StepWinner(t: Tree, depth: seq<nat>): (w: int)
    requires StepReady(t, depth) && t.next < t.n * t.m
    ensures InGrid(t.n, t.m, w)
  {
    var rs := StepRoots(t, depth);
    MergeWinner(t, NextCell(t), rs)
  }

  /** The depth measure after the next step. */
  ghost function NextDepth(t: Tree, depth: seq<nat>): seq<nat>
    requires StepReady(t, depth)
  {
    if t.next >= t.n * t.m then depth else Shift(depth, StepWinner(t, depth))
  }

  /** Every root in the list of adjacent roots came from a contained
      candidate, the k-th. */
  lemma {:induction false} AdjRootsFrom(t: Tree, depth: seq<nat>, v: int, offs: seq<int>, x: int)
    returns (k: int)
    requires FindReady(t, depth) && x in AdjRoots(t, depth, v, offs)
    ensures 0 <= k < |offs| && Contains(t, v + offs[k])
    ensures x == RootOf(t.uf, depth, v + offs[k])
  {
    var p := offs[..|offs| - 1];
    if x in AdjRoots(t, depth, v, p) {
      k := AdjRootsFrom(t, depth, v, p, x);
      assert p[k] == offs[k];
    } else {
      k := |offs| - 1;
    }
  }

  /** Every contained candidate's root is in the list of adjacent roots. */
  lemma {:induction false} AdjRootsHas(t: Tree, depth: seq<nat>, v: int, offs: seq<int>, k: int)
    requires FindReady(t, depth) && 0 <= k < |offs| && Contains(t, v + offs[k])
    ensures RootOf(t.uf, depth, v + offs[k]) in AdjRoots(t, depth, v, offs)
  {
    var p := offs[..|offs| - 1];
    if k < |p| {
      assert p[k] == offs[k];
      AdjRootsHas(t, depth, v, p, k);
    }
  }

  /** A root found by the step is the root of a contained neighbour. */
  lemma StepRootsSound(t: Tree, depth: seq<nat>, x: int)
    requires StepReady(t, depth) && t.next < t.n * t.m
    requires x in StepRoots(t, depth)
    ensures x in AdjacentComponents(t, depth, NextCell(t))
  {
    var v := NextCell(t);
    var t1 := Insert(t);
    InsertReady(t, depth);
    var offs := NeighbourOffsets(t.n, t.m, v);
    var a := AdjRoots(t1, depth, v, offs);
    assert StepRoots(t, depth) == Distinct(a);
    DistinctProps(a);
    assert x in a;
    var k := AdjRootsFrom(t1, depth, v, offs, x);
    var c := v + offs[k];
    OffsetIsNeighbour(t.n, t.m, v, k);
    assert c != v;
    assert Contains(t, c);
    assert Linked(t.uf, c);
    assert RootOf(t1.uf, depth, c) == RootOf(t.uf, depth, c);
    InAdjacent(t, depth, v, c);
  }

  /** The root of a contained neighbour is found by the step. */
  lemma StepRootsComplete(t: Tree, depth: seq<nat>, c: int)
    requires StepReady(t, depth) && t.next < t.n * t.m
    requires 0 <= c < t.n * t.m && Contains(t, c) && ProperAdjacent(t.n, NextCell(t), c)
    ensures Linked(t.uf, c) && RootOf(t.uf, depth, c) in StepRoots(t, depth)
  {
    var v := NextCell(t);
    var t1 := Insert(t);
    InsertReady(t, depth);
    var offs := NeighbourOffsets(t.n, t.m, v);
    var found := AdjRoots(t1, depth, v, offs);
    assert StepRoots(t, depth) == Distinct(found);
    DistinctProps(found);
    NeighbourIsReached(t.n, t.m, v, c);
    var k :| 0 <= k < |offs| && offs[k] == c - v;
    assert v + offs[k] == c && Contains(t1, c) && Linked(t.uf, c);
    AdjRootsHas(t1, depth, v, offs, k);
    assert RootOf(t1.uf, depth, c) == RootOf(t.uf, depth, c);
  }

  /** `find_adj` against its reference: the roots found by the step are
      duplicate-free, exactly the components adjacent to the new cell, and
      all were roots before the step. */
  lemma StepRootsSpec(t: Tree, depth: seq<nat>)
    requires StepReady(t, depth) && t.next < t.n * t.m
    ensures var rs := StepRoots(t, depth);
      && NoDup(rs) && RootsInRange(t, rs) && NextCell(t) !in rs
      && Elems(rs) == AdjacentComponents(t, depth, NextCell(t))
      && (forall r :: r in rs ==> Linked(t.uf, r) && t.uf[r] == r)
  {
    var rs := StepRoots(t, depth);
    var v := NextCell(t);
    forall x | x in rs ensures x in AdjacentComponents(t, depth, v) {
      StepRootsSound(t, depth, x);
    }
    forall x | x in AdjacentComponents(t, depth, v) ensures x in rs {
      var c :| 0 <= c < |t.uf| && Contains(t, c) && ProperAdjacent(t.n, v, c) && x == RootOf(t.uf, depth, c);
      StepRootsComplete(t, depth, c);
    }
  }

  /** Sizes and representatives read the same in two states with the same
      representative map and sizes. */
  lemma SameBook(t: Tree, t': Tree, rs: seq<int>)
    requires RootsInRange(t, rs) && t'.repOf == t.repOf && t'.size == t.size
    ensures RootsInRange(t', rs) && Sizes(t', rs) == Sizes(t, rs) && Reps(t', rs) == Reps(t, rs)
  {
    assert forall i :: 0 <= i < |rs| ==> Sizes(t', rs)[i] == Sizes(t, rs)[i];
  }

  /** The step is `Absorb` applied to what `Gather` returns, and the books
      it reads are those of the state before the step. */
  lemma StepIsAbsorb(t: Tree, depth: seq<nat>)
    requires StepReady(t, depth) && t.next < t.n * t.m
    ensures AbsorbReady(Gather(t, depth).1, NextCell(t), Gather(t, depth).0)
    ensures var v, rs, t3 := NextCell(t), Gather(t, depth).0, Gather(t, depth).1;
      && Step(t, depth) == Absorb(t3, v, rs)
      && t3 == Insert(t).(uf := t3.uf, leaf := t.leaf[v := |rs| == 0],
                          bifurcation := t.bifurcation[v := |rs| > 1])
      && MergeWinner(t3, v, rs) == StepWinner(t, depth)
      && Sum(Sizes(t3, rs)) == Sum(Sizes(t, rs)) && Reps(t3, rs) == Reps(t, rs)
  {
    GatherReady(t, depth);
    var (rs, t3) := Gather(t, depth);
    SameBook(t, t3, rs);
  }

  /** One insertion, field by field: the counters advance and the component
      count changes by one minus the number of adjacent roots; the new cell's
      leaf flag says no root was adjacent and its bifurcation flag that two
      or more were; the winner's representative becomes the new cell, whose
      size is one plus the merged sizes; nothing else but the parent arrays
      and root flags changes. */
  lemma StepFields(t: Tree, depth: seq<nat>)
    requires StepReady(t, depth) && t.next < t.n * t.m
    ensures FieldsFact(t, Step(t, depth), NextCell(t), StepRoots(t, depth), StepWinner(t, depth))
  {
    StepIsAbsorb(t, depth);
    var v, rs, t3 := NextCell(t), Gather(t, depth).0, Gather(t, depth).1;
    AbsorbFields(t, t3, v, rs, MergeWinner(t3, v, rs));
  }

  /** `Absorb` after insertion and classification, read against the state
      before the insertion. */
  lemma AbsorbFields(t: Tree, t3: Tree, v: int, rs: seq<int>, w: int)
    requires AbsorbReady(t3, v, rs) && t.next < |t.order| && v == t.order[t.next]
    requires 0 <= v < |t.parent| == |t.uf| == |t.leaf| == |t.bifurcation| == t.n * t.m
    requires t3 == Insert(t).(uf := t3.uf, leaf := t.leaf[v := |rs| == 0],
                              bifurcation := t.bifurcation[v := |rs| > 1])
    requires w == MergeWinner(t3, v, rs)
    ensures FieldsFact(t, Absorb(t3, v, rs), v, rs, w)
  {
    SameBook(t, t3, rs);
  }

  /** The new cell and the representatives of the adjacent components get
      the new cell as forest parent; every other parent entry is kept. */
  lemma StepParents(t: Tree, depth: seq<nat>)
    requires StepReady(t, depth) && t.next < t.n * t.m
    ensures var v, rs, t' := NextCell(t), StepRoots(t, depth), Step(t, depth);
      && |t'.parent| == t.n * t.m
      && forall y :: 0 <= y < t.n * t.m ==>
           t'.parent[y] == if y == v || y in Reps(t, rs) then v else t.parent[y]
  {
    StepIsAbsorb(t, depth);
  }

  /** Of the merged roots and the new cell only the winner is flagged as a
      root afterwards; every other flag is kept. */
  lemma StepRootFlags(t: Tree, depth: seq<nat>)
    requires StepReady(t, depth) && t.next < t.n * t.m
    ensures var v, rs, w, t' := NextCell(t), StepRoots(t, depth), StepWinner(t, depth), Step(t, depth);
      && |t'.isRoot| == t.n * t.m
      && forall y :: 0 <= y < t.n * t.m ==>
           t'.isRoot[y] == if y in rs || y == v then y == w else t.isRoot[y]
  {
    StepIsAbsorb(t, depth);
  }

  /** The merge joins the roots of the adjacent components and the new cell,
      all roots after `find_adj`, to the winner. */
  lemma StepJoined(t: Tree, depth: seq<nat>)
    requires StepReady(t, depth) && t.next < t.n * t.m
    ensures var v, rs, w := NextCell(t), StepRoots(t, depth), StepWinner(t, depth);
      && SameForest(Insert(t).uf, Gather(t, depth).1.uf, depth)
      && JoinedTo(Gather(t, depth).1.uf, Step(t, depth).uf, Elems(rs) + {v}, w)
      && NextDepth(t, depth) == Shift(depth, w)
  {
    StepIsAbsorb(t, depth);
    InsertReady(t, depth);
    var v, rs, t3 := NextCell(t), Gather(t, depth).0, Gather(t, depth).1;
    var uf1 := Insert(t).uf;
    assert Linked(uf1, v) && uf1[v] == v;
    forall r | r in rs ensures Linked(t3.uf, r) && t3.uf[r] == r {
      assert Linked(t.uf, r) && t.uf[r] == r;
      assert Linked(uf1, r) && uf1[r] == r;
    }
    AbsorbJoins(t3, v, rs);
  }

  /** `Absorb` points the listed roots and the new cell, all roots, at the
      winner and changes no other union-find entry. */
  lemma AbsorbJoins(t3: Tree, v: int, rs: seq<int>)
    requires AbsorbReady(t3, v, rs) && Linked(t3.uf, v)
    requires forall r :: r in rs ==> Linked(t3.uf, r) && t3.uf[r] == r
    ensures JoinedTo(t3.uf, Absorb(t3, v, rs).uf, Elems(rs) + {v}, MergeWinner(t3, v, rs))
  {
  }

  /** Root finding after the step: the new cell and every cell whose
      component was adjacent to it reach the winner; every other cell keeps
      its root. */
  lemma StepRootOf(t: Tree, depth: seq<nat>, y: int)
    requires StepReady(t, depth) && t.next < t.n * t.m
    requires Linked(t.uf, y) || y == NextCell(t)
    ensures Ranked(Step(t, depth).uf, NextDepth(t, depth)) && Linked(Step(t, depth).uf, y)
    ensures RootOf(Step(t, depth).uf, NextDepth(t, depth), y) ==
      if y == NextCell(t) || RootOf(t.uf, depth, y) in StepRoots(t, depth) then StepWinner(t, depth)
      else RootOf(t.uf, depth, y)
  {
    StepJoined(t, depth);
    InsertReady(t, depth);
    var v, w := NextCell(t), StepWinner(t, depth);
    var uf1, uf2 := Insert(t).uf, Gather(t, depth).1.uf;
    var J := Elems(StepRoots(t, depth)) + {v};
    assert Linked(uf1, y);
    JoinKeepsOtherRoots(uf2, Step(t, depth).uf, depth, J, w, y);
    assert RootOf(uf2, depth, y) == RootOf(uf1, depth, y);
    if y == v {
      RootOfRoot(uf1, depth, v);
    } else {
      assert !Linked(t.uf, v);
    }
  }

  /** The step links exactly the new cell besides the cells linked before,
      keeps the parent array ranked under the next depth, and leaves as
      union-find roots the winner and the old roots not merged. */
  lemma StepForest(t: Tree, depth: seq<nat>)
    requires StepReady(t, depth) && t.next < t.n * t.m
    ensures var v, rs, w, uf' := NextCell(t), StepRoots(t, depth), StepWinner(t, depth), Step(t, depth).uf;
      && Ranked(uf', NextDepth(t, depth)) && |uf'| == t.n * t.m
      && (forall y :: Linked(uf', y) <==> Linked(t.uf, y) || y == v)
      && (forall y :: 0 <= y < t.n * t.m ==>
            (uf'[y] == y <==> if y in rs || y == v then y == w else t.uf[y] == y))
  {
    StepJoined(t, depth);
    InsertReady(t, depth);
    var v := NextCell(t);
    var uf1, uf2 := Insert(t).uf, Gather(t, depth).1.uf;
    JoinRanked(uf2, Step(t, depth).uf, depth, Elems(StepRoots(t, depth)) + {v}, StepWinner(t, depth));
    forall y | 0 <= y < t.n * t.m && y != v ensures uf2[y] == y <==> t.uf[y] == y {
      assert uf1[y] == t.uf[y];
    }
  }

  // ---------------------------------------------------------------------
  // The step as a relation between two states

  /** The inputs of a step from t: the inserted cell v, the adjacent roots
      rs and the winner w, as characterised above. */
  ghost predicate RootsFact(t: Tree, depth: seq<nat>, v: int, rs: seq<int>, w: int)
    requires FindReady(t, depth) && t.n > 0
  {
    && t.next < |t.order| && v == t.order[t.next] && InGrid(t.n, t.m, v)
    && NoDup(rs) && RootsInRange(t, rs) && v !in rs
    && (forall r :: r in rs ==> Linked(t.uf, r) && t.uf[r] == r)
    && Elems(rs) == AdjacentComponents(t, depth, v)
    && (w == v || w in rs) && (|rs| == 0 ==> w == v)
  }

  /** The fields of the state after a step. */
  ghost predicate FieldsFact(t: Tree, t': Tree, v: int, rs: seq<int>, w: int)
  {
    && RootsInRange(t, rs) && 0 <= v < t.n * t.m && 0 <= w < t.n * t.m
    && |t.repOf| == |t.size| == |t.leaf| == |t.bifurcation| == t.n * t.m
    && t' == t.(parent := t'.parent, uf := t'.uf, isRoot := t'.isRoot,
                repOf := t.repOf[w := v], size := t.size[v := 1 + Sum(Sizes(t, rs))],
                next := t.next + 1, nElts := t.nElts + 1, nComps := t.nComps + 1 - |rs|,
                leaf := t.leaf[v := |rs| == 0], bifurcation := t.bifurcation[v := |rs| > 1])
    && |t'.parent| == |t'.uf| == |t'.isRoot| == t.n * t.m
  }

  /** The forest parents after a step. */
  ghost predicate ParentsFact(t: Tree, t': Tree, v: int, rs: seq<int>)
  {
    && RootsInRange(t, rs) && |t'.parent| == |t.parent| == t.n * t.m
    && forall y :: 0 <= y < t.n * t.m ==>
         t'.parent[y] == if y == v || y in Reps(t, rs) then v else t.parent[y]
  }

  /** The root flags after a step. */
  ghost predicate FlagsFact(t: Tree, t': Tree, v: int, rs: seq<int>, w: int)
  {
    && |t'.isRoot| == |t.isRoot| == t.n * t.m
    && forall y :: 0 <= y < t.n * t.m ==>
         t'.isRoot[y] == if y in rs || y == v then y == w else t.isRoot[y]
  }

  /** The union-find parent array after a step. */
  ghost predicate ForestFact(t: Tree, t': Tree, depth': seq<nat>, v: int, rs: seq<int>, w: int)
  {
    && Ranked(t'.uf, depth') && |t'.uf| == |t.uf| == t.n * t.m
    && (forall y :: Linked(t'.uf, y) <==> Linked(t.uf, y) || y == v)
    && (forall y :: 0 <= y < t.n * t.m ==>
          (t'.uf[y] == y <==> if y in rs || y == v then y == w else t.uf[y] == y))
  }

  /** The root of y after a step. */
  ghost predicate RootFact(t: Tree, depth: seq<nat>, t': Tree, depth': seq<nat>,
                           v: int, rs: seq<int>, w: int, y: int)
    requires Ranked(t.uf, depth) && Ranked(t'.uf, depth')
  {
    (Linked(t.uf, y) || y == v) ==>
      && Linked(t'.uf, y)
      && RootOf(t'.uf, depth', y) == if y == v || RootOf(t.uf, depth, y) in rs then w else RootOf(t.uf, depth, y)
  }

  /** The step from t satisfies every fact above. */
  lemma StepFacts(t: Tree, depth: seq<nat>)
    requires StepReady(t, depth) && t.next < t.n * t.m
    ensures var t', d', v, rs, w := Step(t, depth), NextDepth(t, depth), NextCell(t),
                                    StepRoots(t, depth), StepWinner(t, depth);
      && RootsFact(t, depth, v, rs, w) && FieldsFact(t, t', v, rs, w)
      && ParentsFact(t, t', v, rs) && FlagsFact(t, t', v, rs, w)
      && ForestFact(t, t', d', v, rs, w)
      && forall y {:trigger RootFact(t, depth, t', d', v, rs, w, y)} ::
           RootFact(t, depth, t', d', v, rs, w, y)
  {
    var t', d', v, rs, w := Step(t, depth), NextDepth(t, depth), NextCell(t),
                           StepRoots(t, depth), StepWinner(t, depth);
    StepRootsSpec(t, depth);
    StepFields(t, depth);
    StepParents(t, depth);
    StepRootFlags(t, depth);
    StepForest(t, depth);
    forall y ensures RootFact(t, depth, t', d', v, rs, w, y) {
      if Linked(t.uf, y) || y == v {
        StepRootOf(t, depth, y);
      }
    }
  }

  // ---------------------------------------------------------------------
  // Classification of the inserted cell

  /** Two of v's contained proper 8-neighbours lie in different components. */
  ghost predicate Splits(t: Tree, depth: seq<nat>, v: int)
    requires FindReady(t, depth) && t.n > 0
  {
    exists a, b :: 0 <= a < |t.uf| && 0 <= b < |t.uf| && Contains(t, a) && Contains(t, b)
      && ProperAdjacent(t.n, v, a) && ProperAdjacent(t.n, v, b)
      && RootOf(t.uf, depth, a) != RootOf(t.uf, depth, b)
  }

  /** With the adjacent roots rs of v: there are none exactly when no
      8-neighbour of v is in the tree. */
  lemma NoRootsIffAlone(t: Tree, depth: seq<nat>, v: int, rs: seq<int>, w: int)
    requires FindReady(t, depth) && t.n > 0 && RootsFact(t, depth, v, rs, w)
    ensures |rs| == 0 <==> forall c :: 0 <= c < t.n * t.m && Contains(t, c) ==> !ProperAdjacent(t.n, v, c)
  {
    if exists c :: 0 <= c < t.n * t.m && Contains(t, c) && ProperAdjacent(t.n, v, c) {
      var c :| 0 <= c < t.n * t.m && Contains(t, c) && ProperAdjacent(t.n, v, c);
      assert RootOf(t.uf, depth, c) in AdjacentComponents(t, depth, v);
      assert RootOf(t.uf, depth, c) in rs;
    }
    if |rs| != 0 {
      assert rs[0] in Elems(rs);
    }
  }

  /** With the adjacent roots rs of v: there are two or more exactly when
      two 8-neighbours of v in the tree lie in different components. */
  lemma ManyRootsIffSplits(t: Tree, depth: seq<nat>, v: int, rs: seq<int>, w: int)
    requires FindReady(t, depth) && t.n > 0 && RootsFact(t, depth, v, rs, w)
    ensures |rs| > 1 <==> Splits(t, depth, v)
  {
    if Splits(t, depth, v) {
      SplitsHasTwoRoots(t, depth, v, rs, w);
    }
    if |rs| > 1 {
      TwoRootsSplit(t, depth, v, rs, w);
    }
  }

  lemma SplitsHasTwoRoots(t: Tree, depth: seq<nat>, v: int, rs: seq<int>, w: int)
    requires FindReady(t, depth) && t.n > 0 && RootsFact(t, depth, v, rs, w)
    requires Splits(t, depth, v)
    ensures |rs| > 1
  {
    var a, b :| 0 <= a < |t.uf| && 0 <= b < |t.uf| && Contains(t, a) && Contains(t, b)
      && ProperAdjacent(t.n, v, a) && ProperAdjacent(t.n, v, b)
      && RootOf(t.uf, depth, a) != RootOf(t.uf, depth, b);
    var x, y := RootOf(t.uf, depth, a), RootOf(t.uf, depth, b);
    InAdjacent(t, depth, v, a);
    InAdjacent(t, depth, v, b);
    SubsetCard({x, y}, Elems(rs));
    NoDupCard(rs);
  }

  /** The component of a contained proper 8-neighbour of v is adjacent to v. */
  lemma InAdjacent(t: Tree, depth: seq<nat>, v: int, c: int)
    requires FindReady(t, depth) && t.n > 0
    requires 0 <= c < |t.uf| && Contains(t, c) && ProperAdjacent(t.n, v, c)
    ensures Linked(t.uf, c) && RootOf(t.uf, depth, c) in AdjacentComponents(t, depth, v)
  {
  }

  lemma TwoRootsSplit(t: Tree, depth: seq<nat>, v: int, rs: seq<int>, w: int)
    requires FindReady(t, depth) && t.n > 0 && RootsFact(t, depth, v, rs, w)
    requires |rs| > 1
    ensures Splits(t, depth, v)
  {
    var x, y := rs[0], rs[1];
    assert x in Elems(rs) && y in Elems(rs);
    var a :| 0 <= a < |t.uf| && Contains(t, a) && ProperAdjacent(t.n, v, a) && x == RootOf(t.uf, depth, a);
    var b :| 0 <= b < |t.uf| && Contains(t, b) && ProperAdjacent(t.n, v, b) && y == RootOf(t.uf, depth, b);
    assert RootOf(t.uf, depth, a) != RootOf(t.uf, depth, b);
  }

  /** The flags after a step from t to t' inserting v with adjacent roots rs. */
  lemma ClassifyAfter(t: Tree, depth: seq<nat>, t': Tree, v: int, rs: seq<int>, w: int)
    requires FindReady(t, depth) && t.n > 0
    requires RootsFact(t, depth, v, rs, w) && FieldsFact(t, t', v, rs, w)
    ensures |t'.leaf| == |t'.bifurcation| == t.n * t.m
    ensures t'.leaf[v] <==> forall c :: 0 <= c < t.n * t.m && Contains(t, c) ==> !ProperAdjacent(t.n, v, c)
    ensures t'.bifurcation[v] <==> Splits(t, depth, v)
    ensures forall y :: 0 <= y < t.n * t.m && y != v ==>
      t'.leaf[y] == t.leaf[y] && t'.bifurcation[y] == t.bifurcation[y]
  {
    NoRootsIffAlone(t, depth, v, rs, w);
    ManyRootsIffSplits(t, depth, v, rs, w);
  }

  /** The classification `bfalg_add` records for the inserted cell v: a
      leaf exactly when no 8-neighbour of v is in the tree, a bifurcation
      exactly when two of its 8-neighbours in the tree belong to different
      components; the flags of every other cell are kept. */
  lemma StepClassify(t: Tree, depth: seq<nat>)
    requires StepReady(t, depth) && t.next < t.n * t.m
    ensures var v, t' := NextCell(t), Step(t, depth);
      && InGrid(t.n, t.m, v) && |t'.leaf| == |t'.bifurcation| == t.n * t.m
      && (t'.leaf[v] <==> forall c :: 0 <= c < t.n * t.m && Contains(t, c) ==> !ProperAdjacent(t.n, v, c))
      && (t'.bifurcation[v] <==> Splits(t, depth, v))
      && (forall y :: 0 <= y < t.n * t.m && y != v ==>
            t'.leaf[y] == t.leaf[y] && t'.bifurcation[y] == t.bifurcation[y])
  {
    StepFacts(t, depth);
    ClassifyAfter(t, depth, Step(t, depth), NextCell(t), StepRoots(t, depth), StepWinner(t, depth));
  }
}

=== FILE: js_tree.dfy ===
/**
 The state of a join/split tree builder over an N x M grid and its
 per-cell operations: membership, union-find root finding with path
 splitting, collection of the adjacent components of a new cell, and the
 insertion step that classifies the cell and merges those components.

 Two parent arrays are kept apart: `uf`, the union-find parent used only to
 decide which component a cell belongs to, and `parent`, the merge-tree
 (forest) parent.  `repOf` maps a union-find root to its component's forest
 representative, the component's most recently inserted cell.
 */
module JsTree {
  import opened Grid
  import opened UnionFind
  import opened SeqUtil

  /** The exceptions the builder raises. */
  datatype Error = ValueError | NotImplementedError

  datatype Result<T> = Ok(value: T) | Err(error: Error)

  /** The builder object.  Every per-cell array has one entry per cell id. */
  datatype Tree = Tree(
    n: nat,                  // rows, N
    m: nat,                  // columns, M
    regions: seq<int>,       // boundary class of each cell
    adj: seq<seq<int>>,      // neighbour offsets of each boundary class
    order: seq<int>,         // the insertion order handed to `Make`
    made: bool,              // a build has completed
    next: nat,               // number of cells of `order` inserted so far
    nElts: nat,              // element count
    nComps: int,             // component count
    leaf: seq<bool>,         // cell merged no component when inserted
    bifurcation: seq<bool>,  // cell merged two or more components when inserted
    isRoot: seq<bool>,       // cell is a union-find root
    repOf: seq<int>,         // union-find root -> forest representative
    size: seq<int>,          // component size, kept at the forest representative
    uf: seq<int>,            // union-find parent
    parent: seq<int>         // merge-tree parent
  )

  /** The sentinel N*M marking an unset parent entry; it is never a cell id. */
  function NoneId(t: Tree): int
  {
    t.n * t.m
  }

  /** Dimensions, tables and array lengths as the constructor leaves them. */
  ghost predicate Shaped(t: Tree)
  {
    && t.n >= 2 && t.m >= 1
    && t.regions == RegionTable(t.n, t.m)
    && t.adj == OffsetTable(t.n)
    && |t.leaf| == t.n * t.m && |t.bifurcation| == t.n * t.m
    && |t.isRoot| == t.n * t.m && |t.repOf| == t.n * t.m
    && |t.size| == t.n * t.m && |t.uf| == t.n * t.m
    && |t.parent| == t.n * t.m
  }

  /** Only ids in [0, N*M) can be cells. */
  function IsIllegal(t: Tree, x: int): (r: bool)
    ensures r <==> !InGrid(t.n, t.m, x)
  {
    !(0 <= x < t.n * t.m)
  }

  /** `x in tree`: x is a cell whose forest parent is set.  Ids outside the
      grid answer false rather than failing. */
  function Contains(t: Tree, x: int): (r: bool)
    requires |t.parent| == t.n * t.m
  {
    if IsIllegal(t, x) then false
    else t.parent[x] != NoneId(t)
  }

  /** `len(tree)`: the element count. */
  function Len(t: Tree): nat
  {
    t.nElts
  }

  // ---------------------------------------------------------------------
  // Root finding

  /** What root finding relies on: the union-find array is ranked, a cell is
      linked exactly when it is contained, and root flags sit on roots. */
  ghost predicate FindReady(t: Tree, depth: seq<nat>)
  {
    && |t.uf| == t.n * t.m && |t.parent| == t.n * t.m && |t.isRoot| == t.n * t.m
    && Ranked(t.uf, depth)
    && (forall y :: 0 <= y < |t.uf| ==> (Contains(t, y) <==> Linked(t.uf, y)))
    && (forall y :: 0 <= y < |t.uf| && t.isRoot[y] ==> Linked(t.uf, y) && t.uf[y] == y)
  }

  /** The union-find root of x, or the sentinel for an id that is not a cell
      of the tree.  A flagged root answers at once; otherwise the loop walks
      to the root, pointing every visited cell at its grandparent.  The
      requires on x is `_find_root_of_JSUFD`'s final assertion that the root
      reached is flagged. */
  function Find(t: Tree, x: int, ghost depth: seq<nat>): (res: (int, Tree))
    requires FindReady(t, depth)
    requires Contains(t, x) ==> t.isRoot[RootOf(t.uf, depth, x)]
    ensures !Contains(t, x) ==> res == (NoneId(t), t)
    ensures Contains(t, x) ==>
      && res.0 == RootOf(t.uf, depth, x) && t.isRoot[res.0]
      && res.1 == t.(uf := res.1.uf) && SameForest(t.uf, res.1.uf, depth)
      && res.1.uf[res.0] == res.0
  {
    if !Contains(t, x) then (NoneId(t), t)
    else if t.isRoot[x] then
      SameForestRefl(t.uf, depth);
      (x, t)
    else
      SplitSameForest(t.uf, x, depth);
      var (p, uf') := Split(t.uf, x, depth);
      (p, t.(uf := uf'))
  }

  /** A rewrite within one forest keeps everything root finding relies on. */
  lemma SameForestReady(t: Tree, uf': seq<int>, depth: seq<nat>)
    requires FindReady(t, depth) && SameForest(t.uf, uf', depth)
    ensures FindReady(t.(uf := uf'), depth)
  {
    var t' := t.(uf := uf');
    forall y | 0 <= y < |t'.uf| && t'.isRoot[y]
      ensures Linked(t'.uf, y) && t'.uf[y] == y
    {
      assert Linked(t.uf, y) && t.uf[y] == y;
    }
  }

  // ---------------------------------------------------------------------
  // Adjacent components

  /** Root finding may be asked about every contained cell except the new
      cell v, whose flag is not yet set. */
  ghost predicate AdjReady(t: Tree, v: int, depth: seq<nat>)
  {
    && Shaped(t) && FindReady(t, depth) && InGrid(t.n, t.m, v)
    && forall y {:trigger RootOf(t.uf, depth, y)} ::
         0 <= y < t.n * t.m && Contains(t, y) && y != v ==> t.isRoot[RootOf(t.uf, depth, y)]
  }

  /** The roots of the contained cells among v + offs, in offset order,
      repeats included. */
  ghost function AdjRoots(t: Tree, depth: seq<nat>, v: int, offs: seq<int>): seq<int>
    requires FindReady(t, depth)
  {
    if offs == [] then []
    else
      var c := v + offs[|offs| - 1];
      AdjRoots(t, depth, v, offs[..|offs| - 1])
        + (if Contains(t, c) then [RootOf(t.uf, depth, c)] else [])
  }

  lemma AdjRootsSameForest(t: Tree, uf': seq<int>, depth: seq<nat>, v: int, offs: seq<int>)
    requires FindReady(t, depth) && SameForest(t.uf, uf', depth)
    ensures FindReady(t.(uf := uf'), depth)
    ensures AdjRoots(t.(uf := uf'), depth, v, offs) == AdjRoots(t, depth, v, offs)
  {
    SameForestReady(t, uf', depth);
    if offs != [] {
      AdjRootsSameForest(t, uf', depth, v, offs[..|offs| - 1]);
    }
  }

  /** The loop of `find_adj` from offset index k on, with the roots found so
      far in acc. */
  function FindAdjFrom(t: Tree, v: int, offs: seq<int>, k: nat, acc: seq<int>,
                       ghost depth: seq<nat>): (res: (seq<int>, Tree))
    requires AdjReady(t, v, depth) && k <= |offs|
    requires forall off :: off in offs ==> off != 0
    requires acc == Distinct(AdjRoots(t, depth, v, offs[..k]))
    ensures res.0 == Distinct(AdjRoots(t, depth, v, offs))
    ensures res.1 == t.(uf := res.1.uf) && SameForest(t.uf, res.1.uf, depth)
    decreases |offs| - k
  {
    if k == |offs| then
      assert offs[..k] == offs;
      SameForestRefl(t.uf, depth);
      (acc, t)
    else
      var c := v + offs[k];
      if Contains(t, c) then
        FindAdjAdvance(t, v, offs, k, acc, depth);
        var (r, t') := Find(t, c, depth);
        var res := FindAdjFrom(t', v, offs, k + 1, if r in acc then acc else acc + [r], depth);
        SameForestTrans(t.uf, t'.uf, res.1.uf, depth);
        res
      else
        FindAdjSkip(t, v, offs, k, depth);
        FindAdjFrom(t, v, offs, k + 1, acc, depth)
  }

  /** A candidate that is not contained adds no root. */
  lemma FindAdjSkip(t: Tree, v: int, offs: seq<int>, k: nat, depth: seq<nat>)
    requires FindReady(t, depth) && k < |offs| && !Contains(t, v + offs[k])
    ensures AdjRoots(t, depth, v, offs[..k + 1]) == AdjRoots(t, depth, v, offs[..k])
  {
    assert offs[..k + 1][..k] == offs[..k];
  }

  /** A contained candidate c: its root is found without disturbing any other
      cell's root, and is appended when not seen before. */
  lemma FindAdjAdvance(t: Tree, v: int, offs: seq<int>, k: nat, acc: seq<int>, depth: seq<nat>)
    requires AdjReady(t, v, depth) && k < |offs|
    requires forall off :: off in offs ==> off != 0
    requires acc == Distinct(AdjRoots(t, depth, v, offs[..k]))
    requires Contains(t, v + offs[k])
    ensures t.isRoot[RootOf(t.uf, depth, v + offs[k])]
    ensures var (r, t') := Find(t, v + offs[k], depth);
      && AdjReady(t', v, depth)
      && (if r in acc then acc else acc + [r]) == Distinct(AdjRoots(t', depth, v, offs[..k + 1]))
      && AdjRoots(t', depth, v, offs) == AdjRoots(t, depth, v, offs)
  {
    var c := v + offs[k];
    assert offs[k] in offs;
    assert c != v;
    var res := Find(t, c, depth);
    SameForestAdjReady(t, res.1.uf, v, depth);
    AdjRootsSameForest(t, res.1.uf, depth, v, offs[..k + 1]);
    AdjRootsSameForest(t, res.1.uf, depth, v, offs);
    AppendRoot(t, v, offs, k, depth);
  }

  lemma AppendRoot(t: Tree, v: int, offs: seq<int>, k: nat, depth: seq<nat>)
    requires FindReady(t, depth) && k < |offs| && Contains(t, v + offs[k])
    ensures var acc := Distinct(AdjRoots(t, depth, v, offs[..k]));
      var r := RootOf(t.uf, depth, v + offs[k]);
      (if r in acc then acc else acc + [r]) == Distinct(AdjRoots(t, depth, v, offs[..k + 1]))
  {
    var r := RootOf(t.uf, depth, v + offs[k]);
    var before := AdjRoots(t, depth, v, offs[..k]);
    assert offs[..k + 1][..k] == offs[..k];
    assert AdjRoots(t, depth, v, offs[..k + 1]) == before + [r];
    DistinctSnoc(before, r);
    DistinctProps(before);
  }

  lemma SameForestAdjReady(t: Tree, uf': seq<int>, v: int, depth: seq<nat>)
    requires AdjReady(t, v, depth) && SameForest(t.uf, uf', depth)
    ensures AdjReady(t.(uf := uf'), v, depth)
  {
    SameForestReady(t, uf', depth);
    var t' := t.(uf := uf');
    forall y | 0 <= y < t.n * t.m && Contains(t', y) && y != v
      ensures t'.isRoot[RootOf(t'.uf, depth, y)]
    {
      assert Contains(t, y) && Linked(t.uf, y);
    }
  }

  /** `find_adj`: the distinct union-find roots of the contained cells among
      v's neighbour candidates, each at its first occurrence in the fixed
      offset order. */
  function FindAdj(t: Tree, v: int, ghost depth: seq<nat>): (res: (seq<int>, Tree))
    requires AdjReady(t, v, depth)
    ensures res.0 == Distinct(AdjRoots(t, depth, v, NeighbourOffsets(t.n, t.m, v)))
    ensures res.1 == t.(uf := res.1.uf) && SameForest(t.uf, res.1.uf, depth)
  {
    NeighbourTable(t.n, t.m, v);
    assert t.adj[t.regions[v]] == NeighbourOffsets(t.n, t.m, v);
    assert [] == Distinct(AdjRoots(t, depth, v, t.adj[t.regions[v]][..0]));
    FindAdjFrom(t, v, t.adj[t.regions[v]], 0, [], depth)
  }

  // ---------------------------------------------------------------------
  // Merging

  /** Every root of the list and its forest representative are cells. */
  ghost predicate RootsInRange(t: Tree, rs: seq<int>)
  {
    forall r :: r in rs ==> 0 <= r < |t.repOf| && 0 <= t.repOf[r] < |t.size|
  }

  /** The component sizes of the listed roots, read at their representatives. */
  function Sizes(t: Tree, rs: seq<int>): (s: seq<int>)
    requires RootsInRange(t, rs)
    ensures |s| == |rs|
  {
    seq(|rs|, i requires 0 <= i < |rs| => assert rs[i] in rs; t.size[t.repOf[rs[i]]])
  }

  /** The merge winner: the first root of the list whose component is
      largest (Python's `max` with a key keeps the first maximum). */
  function Winner(t: Tree, rs: seq<int>): (w: int)
    requires |rs| > 0 && NoDup(rs) && RootsInRange(t, rs)
    ensures w in rs
    ensures forall k :: 0 <= k < |rs| && rs[k] == w ==>
      && (forall i :: 0 <= i < |rs| ==> Sizes(t, rs)[i] <= Sizes(t, rs)[k])
      && (forall i :: 0 <= i < k ==> Sizes(t, rs)[i] < Sizes(t, rs)[k])
  {
    rs[FirstMaxIndex(Sizes(t, rs))]
  }

  /** The forest representatives of the listed roots. */
  ghost function Reps(t: Tree, rs: seq<int>): set<int>
    requires RootsInRange(t, rs)
  {
    set r | r in rs :: t.repOf[r]
  }

  /** The loop over the adjacent roots: each root's representative gets the
      new cell v as forest parent, the root is pointed at the winner w and
      keeps its root flag only if it is the winner, the component count drops
      by one, and the sizes are added up. */
  function MergeRoots(t: Tree, v: int, w: int, rs: seq<int>, comp: int): (res: (Tree, int))
    requires RootsInRange(t, rs)
    requires |t.parent| == |t.uf| == |t.isRoot| == |t.repOf| == |t.size|
    ensures res.0 == t.(parent := res.0.parent, uf := res.0.uf, isRoot := res.0.isRoot,
                        nComps := t.nComps - |rs|)
    ensures |res.0.parent| == |t.parent| && |res.0.uf| == |t.uf| && |res.0.isRoot| == |t.isRoot|
    ensures forall y :: 0 <= y < |t.parent| ==>
      res.0.parent[y] == if y in Reps(t, rs) then v else t.parent[y]
    ensures forall y :: 0 <= y < |t.uf| ==>
      res.0.uf[y] == if y in rs then w else t.uf[y]
    ensures forall y :: 0 <= y < |t.isRoot| ==>
      res.0.isRoot[y] == if y in rs then y == w else t.isRoot[y]
    ensures res.1 == comp + Sum(Sizes(t, rs))
    decreases |rs|
  {
    if rs == [] then (t, comp)
    else
      var r := rs[0];
      assert r in rs;
      var rep := t.repOf[r];
      var t' := t.(parent := t.parent[rep := v], nComps := t.nComps - 1,
                   uf := t.uf[r := w], isRoot := t.isRoot[r := r == w]);
      BooksHeadTail(t, t', rs);
      var res := MergeRoots(t', v, w, rs[1..], comp + t.size[rep]);
      SumCons(t.size[rep], Sizes(t', rs[1..]));
      res
  }

  /** Sizes and representatives of a list split into its head and tail,
      read in a state with the same representative map and sizes. */
  lemma BooksHeadTail(t: Tree, t': Tree, rs: seq<int>)
    requires RootsInRange(t, rs) && |rs| > 0 && t'.repOf == t.repOf && t'.size == t.size
    ensures rs[0] in rs && RootsInRange(t', rs[1..])
    ensures Sizes(t, rs) == [t.size[t.repOf[rs[0]]]] + Sizes(t', rs[1..])
    ensures Reps(t, rs) == {t.repOf[rs[0]]} + Reps(t', rs[1..])
    ensures forall y :: y in rs <==> y == rs[0] || y in rs[1..]
  {
    assert rs[0] in rs;
    assert forall r' :: r' in rs[1..] ==> r' in rs;
    assert forall y :: y in rs <==> y == rs[0] || y in rs[1..];
  }

  /** The winner of a merge: the new cell itself when no component is
      adjacent, the first largest adjacent component otherwise. */
  function MergeWinner(t: Tree, v: int, rs: seq<int>): (w: int)
    requires NoDup(rs) && RootsInRange(t, rs)
    ensures w == v || w in rs
  {
    if |rs| == 0 then v else Winner(t, rs)
  }

  /** The merge's inputs: distinct roots with representatives and sizes in
      range, and a fresh cell v that is its own union-find parent, not
      flagged as a root and not among the roots. */
  ghost predicate AbsorbReady(t: Tree, v: int, rs: seq<int>)
  {
    && RootsInRange(t, rs) && NoDup(rs)
    && |t.parent| == |t.uf| == |t.isRoot| == |t.repOf| == |t.size|
    && 0 <= v < |t.uf| && v !in rs && t.uf[v] == v && !t.isRoot[v]
  }

  /** The tail of `bfalg_add` after classification.  With no adjacent root
      the new cell v becomes a root of its own, representing itself with size
      one; otherwise the adjacent components are merged under the winner w,
      v is pointed at w and becomes the representative of w's component, and
      v's size is one plus the merged sizes. */
  function Absorb(t: Tree, v: int, rs: seq<int>): (res: Tree)
    requires AbsorbReady(t, v, rs)
    ensures var w := MergeWinner(t, v, rs);
      && res == t.(parent := res.parent, uf := res.uf, isRoot := res.isRoot,
                   repOf := t.repOf[w := v], size := t.size[v := 1 + Sum(Sizes(t, rs))],
                   nComps := t.nComps - |rs|)
      && |res.parent| == |t.parent| && |res.uf| == |t.uf| && |res.isRoot| == |t.isRoot|
      && (forall y :: 0 <= y < |t.parent| ==>
            res.parent[y] == if y in Reps(t, rs) then v else t.parent[y])
      && (forall y :: 0 <= y < |t.uf| ==>
            res.uf[y] == if y in rs || y == v then w else t.uf[y])
      && (forall y :: 0 <= y < |t.isRoot| ==>
            res.isRoot[y] == if y in rs || y == v then y == w else t.isRoot[y])
  {
    if |rs| == 0 then
      t.(isRoot := t.isRoot[v := true], repOf := t.repOf[v := v], size := t.size[v := 1])
    else
      var w := Winner(t, rs);
      var (t', comp) := MergeRoots(t, v, w, rs, 1);
      t'.(uf := t'.uf[v := w], repOf := t'.repOf[w := v], size := t'.size[v := comp])
  }

  // ---------------------------------------------------------------------
  // One insertion

  /** What one insertion relies on: the shape, ready root finding with root
      flags exactly on the roots, every root's representative a cell, an
      insertion order over the cells, and a next cell not yet inserted. */
  ghost predicate StepReady(t: Tree, depth: seq<nat>)
  {
    && Shaped(t) && FindReady(t, depth)
    && (forall y :: 0 <= y < t.n * t.m ==> (t.isRoot[y] <==> Linked(t.uf, y) && t.uf[y] == y))
    && (forall r :: Linked(t.uf, r) && t.uf[r] == r ==> 0 <= t.repOf[r] < t.n * t.m)
    && |t.order| == t.n * t.m
    && (forall k :: 0 <= k < |t.order| ==> InGrid(t.n, t.m, t.order[k]))
    && (t.next < t.n * t.m ==> !Contains(t, t.order[t.next]))
  }

  /** The first part of `bfalg_add`: the next cell of the order becomes its
      own forest parent and its own union-find parent, and the element and
      component counts go up by one. */
  function Insert(t: Tree): (res: Tree)
    requires t.next < |t.order| && 0 <= t.order[t.next] < |t.parent| == |t.uf|
    ensures var v := t.order[t.next];
      && res.parent == t.parent[v := v] && res.uf == t.uf[v := v]
      && res.next == t.next + 1 && res.nElts == t.nElts + 1 && res.nComps == t.nComps + 1
      && res.n == t.n && res.m == t.m && res.order == t.order
    ensures |t.parent| == t.n * t.m && InGrid(t.n, t.m, t.order[t.next]) ==>
      forall y :: Contains(res, y) <==> Contains(t, y) || y == t.order[t.next]
  {
    var v := t.order[t.next];
    t.(parent := t.parent[v := v], uf := t.uf[v := v],
       next := t.next + 1, nElts := t.nElts + 1, nComps := t.nComps + 1)
  }

  /** After insertion the new cell is a linked root of its own, every other
      cell keeps its root, and the cells around v may be asked for roots. */
  lemma InsertReady(t: Tree, depth: seq<nat>)
    requires StepReady(t, depth) && t.next < t.n * t.m
    ensures var v := t.order[t.next];
      && AdjReady(Insert(t), v, depth)
      && (forall y :: Linked(Insert(t).uf, y) <==> Linked(t.uf, y) || y == v)
      && (forall y :: Linked(t.uf, y) ==> RootOf(Insert(t).uf, depth, y) == RootOf(t.uf, depth, y))
  {
    var v := t.order[t.next];
    var t1 := Insert(t);
    assert !Linked(t.uf, v);
    LinkFreshRanked(t.uf, depth, v);
    forall y | Linked(t.uf, y)
      ensures RootOf(t1.uf, depth, y) == RootOf(t.uf, depth, y)
    {
      LinkFreshKeepsRoot(t.uf, depth, v, y);
    }
    forall y | 0 <= y < t.n * t.m && Contains(t1, y) && y != v
      ensures t1.isRoot[RootOf(t1.uf, depth, y)]
    {
      assert Contains(t, y) && Linked(t.uf, y);
    }
  }

  /** Every root found among the neighbours of the inserted cell was a root
      before the insertion. */
  lemma {:induction false} AdjRootsOldRoots(t: Tree, depth: seq<nat>, offs: seq<int>)
    requires StepReady(t, depth) && t.next < t.n * t.m
    requires forall off :: off in offs ==> off != 0
    ensures FindReady(Insert(t), depth)
    ensures forall x :: x in AdjRoots(Insert(t), depth, t.order[t.next], offs) ==>
      Linked(t.uf, x) && t.uf[x] == x
  {
    InsertReady(t, depth);
    if offs != [] {
      var p := offs[..|offs| - 1];
      assert forall off :: off in p ==> off in offs;
      AdjRootsOldRoots(t, depth, p);
      var v := t.order[t.next];
      var c := v + offs[|offs| - 1];
      assert offs[|offs| - 1] in offs;
      if Contains(Insert(t), c) {
        assert Linked(t.uf, c);
      }
    }
  }

  /** The adjacent roots of the inserted cell are distinct, were roots before
      the insertion, and have representatives that are cells. */
  lemma AdjacentRootsOk(t: Tree, depth: seq<nat>)
    requires StepReady(t, depth) && t.next < t.n * t.m
    ensures AdjReady(Insert(t), t.order[t.next], depth)
    ensures var rs := FindAdj(Insert(t), t.order[t.next], depth).0;
      && NoDup(rs) && RootsInRange(t, rs) && t.order[t.next] !in rs
      && (forall r :: r in rs ==> Linked(t.uf, r) && t.uf[r] == r)
  {
    var v := t.order[t.next];
    InsertReady(t, depth);
    var offs := NeighbourOffsets(t.n, t.m, v);
    NeighbourTable(t.n, t.m, v);
    AdjRootsOldRoots(t, depth, offs);
    DistinctProps(AdjRoots(Insert(t), depth, v, offs));
    assert !Linked(t.uf, v);
  }

  /** Insertion, `find_adj` and the leaf and bifurcation flags of
      `bfalg_add`: the distinct adjacent roots, and the state with v
      inserted, root finding's rewrites applied and v classified. */
  function Gather(t: Tree, ghost depth: seq<nat>): (res: (seq<int>, Tree))
    requires StepReady(t, depth) && t.next < t.n * t.m
    ensures FindReady(Insert(t), depth)
    ensures var v := t.order[t.next];
      && res.0 == Distinct(AdjRoots(Insert(t), depth, v, NeighbourOffsets(t.n, t.m, v)))
      && res.1 == Insert(t).(uf := res.1.uf, leaf := t.leaf[v := |res.0| == 0],
                             bifurcation := t.bifurcation[v := |res.0| > 1])
      && SameForest(Insert(t).uf, res.1.uf, depth)
      && NoDup(res.0) && RootsInRange(t, res.0) && v !in res.0
      && (forall r :: r in res.0 ==> Linked(t.uf, r) && t.uf[r] == r)
  {
    var v := t.order[t.next];
    InsertReady(t, depth);
    AdjacentRootsOk(t, depth);
    var (rs, t2) := FindAdj(Insert(t), v, depth);
    (rs, t2.(leaf := t2.leaf[v := |rs| == 0], bifurcation := t2.bifurcation[v := |rs| > 1]))
  }

  /** The classified state meets what `Absorb` needs. */
  lemma GatherReady(t: Tree, depth: seq<nat>)
    requires StepReady(t, depth) && t.next < t.n * t.m
    ensures var v := t.order[t.next];
      var (rs, t3) := Gather(t, depth);
      AbsorbReady(t3, v, rs) && |t3.uf| == t.n * t.m
  {
    var v := t.order[t.next];
    var (rs, t3) := Gather(t, depth);
    var t1 := Insert(t);
    assert t1.uf[v] == v;
    assert Linked(t1.uf, v);
    assert !Linked(t.uf, v);
  }

  /** `bfalg_add`: once every cell of the order is inserted nothing changes;
      otherwise the next cell is inserted, classified and merged with its
      adjacent components. */
  function Step(t: Tree, ghost depth: seq<nat>): (res: Tree)
    requires StepReady(t, depth)
    ensures t.next >= t.n * t.m ==> res == t
    ensures t.next < t.n * t.m ==>
      && res.n == t.n && res.m == t.m && res.order == t.order
      && res.next == t.next + 1 && res.nElts == t.nElts + 1
      && Shaped(res) && Contains(res, t.order[t.next])
  {
    if t.next >= NoneId(t) then t
    else
      var v := t.order[t.next];
      GatherReady(t, depth);
      var (rs, t3) := Gather(t, depth);
      Absorb(t3, v, rs)
  }
}

=== FILE: js_walk.dfy ===
/**
 Walks through the cells of the tree: the graph-theoretic reading of a
 component.  The class comment calls a component the elements of one
 disjoint tree; on the grid this is a set of cells of the tree that are
 joined by chains of 8-adjacent cells of the tree.
 */
module JsWalk {
  import opened Grid
  import opened JsTree

  /** A nonempty list of cells of the tree, each equal or 8-adjacent to the
      next. */
  ghost predicate Walk(t: Tree, p: seq<int>)
    requires |t.parent| == t.n * t.m && t.n > 0
  {
    && |p| > 0
    && (forall i :: 0 <= i < |p| ==> 0 <= p[i] < t.n * t.m && Contains(t, p[i]))
    && (forall i :: 0 <= i < |p| - 1 ==> Adjacent(t.n, p[i], p[i + 1]))
  }

  /** A walk from a to b. */
  ghost predicate WalkFrom(t: Tree, p: seq<int>, a: int, b: int)
    requires |t.parent| == t.n * t.m && t.n > 0
  {
    Walk(t, p) && p[0] == a && p[|p| - 1] == b
  }

  /** Some walk through the tree joins a to b. */
  ghost predicate Reach(t: Tree, a: int, b: int)
    requires |t.parent| == t.n * t.m && t.n > 0
  {
    exists p :: WalkFrom(t, p, a, b)
  }

  /** The list read backwards. */
  function Rev(p: seq<int>): (q: seq<int>)
    ensures |q| == |p| && forall i :: 0 <= i < |p| ==> q[i] == p[|p| - 1 - i]
  {
    seq(|p|, i requires 0 <= i < |p| => p[|p| - 1 - i])
  }

  /** A single cell of the tree is a walk to itself. */
  lemma WalkSingle(t: Tree, a: int)
    requires |t.parent| == t.n * t.m && t.n > 0
    requires 0 <= a < t.n * t.m && Contains(t, a)
    ensures WalkFrom(t, [a], a, a)
  {
  }

  /** A walk read backwards is a walk back. */
  lemma WalkRev(t: Tree, p: seq<int>, a: int, b: int)
    requires |t.parent| == t.n * t.m && t.n > 0 && WalkFrom(t, p, a, b)
    ensures WalkFrom(t, Rev(p), b, a)
  {
    var q := Rev(p);
    forall i | 0 <= i < |q| - 1 ensures Adjacent(t.n, q[i], q[i + 1]) {
      var k := |p| - 2 - i;
      assert Adjacent(t.n, p[k], p[k + 1]);
    }
  }

  /** Two walks joined by an 8-adjacent (or equal) pair of ends make one walk. */
  lemma WalkCat(t: Tree, p: seq<int>, q: seq<int>, a: int, b: int, c: int, e: int)
    requires |t.parent| == t.n * t.m && t.n > 0
    requires WalkFrom(t, p, a, b) && WalkFrom(t, q, c, e) && Adjacent(t.n, b, c)
    ensures WalkFrom(t, p + q, a, e)
  {
    var s := p + q;
    forall i | 0 <= i < |s| - 1 ensures Adjacent(t.n, s[i], s[i + 1]) {
      if i < |p| - 1 {
        assert s[i] == p[i] && s[i + 1] == p[i + 1];
      } else if i >= |p| {
        assert s[i] == q[i - |p|] && s[i + 1] == q[i - |p| + 1];
      }
    }
  }

  /** A walk stays a walk when the tree only gains cells. */
  lemma WalkGrows(t: Tree, t': Tree, p: seq<int>, a: int, b: int)
    requires |t.parent| == t.n * t.m && t.n > 0 && t'.n == t.n && t'.m == t.m
    requires |t'.parent| == t.n * t.m
    requires forall y :: 0 <= y < t.n * t.m && Contains(t, y) ==> Contains(t', y)
    requires WalkFrom(t, p, a, b)
    ensures WalkFrom(t', p, a, b)
  {
  }

  /** Two 8-neighbours of v are in the tree and no walk through the tree
      joins them. */
  ghost predicate Disconnects(t: Tree, v: int)
    requires |t.parent| == t.n * t.m && t.n > 0
  {
    exists a, b :: 0 <= a < t.n * t.m && 0 <= b < t.n * t.m && Contains(t, a) && Contains(t, b)
      && ProperAdjacent(t.n, v, a) && ProperAdjacent(t.n, v, b) && !Reach(t, a, b)
  }
}

=== FILE: seq_util.dfy ===
/**
 Sequence helpers: duplicate-free lists, first-occurrence deduplication,
 Python's first-maximum selection and sums.
 */
module SeqUtil {

  predicate NoDup(s: seq<int>)
  {
    forall i, j :: 0 <= i < j < |s| ==> s[i] != s[j]
  }

  function Elems(s: seq<int>): set<int>
  {
    set x | x in s
  }

  /** The list 0, 1, ..., n - 1. */
  function Upto(n: nat): (s: seq<int>)
    ensures |s| == n && forall i :: 0 <= i < n ==> s[i] == i
  {
    seq(n, i => i)
  }

  /** The elements of s, each kept at its first occurrence, in order. */
  ghost function Distinct(s: seq<int>): seq<int>
  {
    if s == [] then []
    else
      var p := s[..|s| - 1];
      Distinct(p) + (if s[|s| - 1] in p then [] else [s[|s| - 1]])
  }

  /** `Distinct` keeps every element once and nothing else. */
  lemma {:induction false} DistinctProps(s: seq<int>)
    ensures NoDup(Distinct(s))
    ensures forall x :: x in Distinct(s) <==> x in s
  {
    if s != [] {
      var p := s[..|s| - 1];
      DistinctProps(p);
      assert forall x :: x in s <==> x in p || x == s[|s| - 1];
    }
  }

  /** Appending one element to the input of `Distinct` appends it to the
      output exactly when it was not seen before. */
  lemma DistinctSnoc(s: seq<int>, x: int)
    ensures Distinct(s + [x]) == Distinct(s) + (if x in s then [] else [x])
  {
    assert (s + [x])[..|s + [x]| - 1] == s;
  }

  /** A duplicate-free sequence has as many distinct elements as entries. */
  lemma {:induction false} NoDupCard(s: seq<int>)
    requires NoDup(s)
    ensures |Elems(s)| == |s|
  {
    if s != [] {
      var p := s[..|s| - 1];
      NoDupCard(p);
      assert Elems(s) == Elems(p) + {s[|s| - 1]};
      assert s[|s| - 1] !in Elems(p);
    }
  }

  /** A sequence of length n over [0, n) that covers every value is duplicate-free. */
  lemma {:induction false} CoveringIsNoDup(s: seq<int>, n: nat)
    requires |s| == n && forall x :: 0 <= x < n ==> x in s
    ensures NoDup(s)
  {
    if !NoDup(s) {
      var i, j :| 0 <= i < j < |s| && s[i] == s[j];
      var t := s[..j] + s[j + 1..];
      assert forall x :: x in s ==> x in t by {
        forall x | x in s ensures x in t {
          var k :| 0 <= k < |s| && s[k] == x;
          if k < j { assert t[k] == x; }
          else if k == j { assert t[i] == x; }
          else { assert t[k - 1] == x; }
        }
      }
      var range := Elems(Upto(n));
      assert range <= Elems(t);
      RangeCard(n);
      CardLe(t);
      SubsetCard(range, Elems(t));
    }
  }

  lemma RangeCard(n: nat)
    ensures |Elems(Upto(n))| == n
  {
    NoDupCard(Upto(n));
  }

  lemma {:induction false} CardLe(s: seq<int>)
    ensures |Elems(s)| <= |s|
  {
    if s != [] {
      var p := s[..|s| - 1];
      CardLe(p);
      assert Elems(s) == Elems(p) + {s[|s| - 1]};
    }
  }

  lemma SubsetCard(a: set<int>, b: set<int>)
    requires a <= b
    ensures |a| <= |b|
  {
    assert b == a + (b - a);
  }

  /** Python's `max` with a key: the index of the first entry with the
      largest key (a later entry replaces the current one only when its key
      is strictly larger). */
  function FirstMaxIndex(keys: seq<int>): (k: nat)
    requires |keys| > 0
    ensures k < |keys|
    ensures forall i :: 0 <= i < |keys| ==> keys[i] <= keys[k]
    ensures forall i :: 0 <= i < k ==> keys[i] < keys[k]
  {
    if |keys| == 1 then 0
    else
      var k := FirstMaxIndex(keys[..|keys| - 1]);
      if keys[|keys| - 1] > keys[k] then |keys| - 1 else k
  }

  function Sum(s: seq<int>): int
  {
    if s == [] then 0 else Sum(s[..|s| - 1]) + s[|s| - 1]
  }

  lemma SumCons(x: int, s: seq<int>)
    ensures Sum([x] + s) == x + Sum(s)
  {
    if s != [] {
      var p := s[..|s| - 1];
      SumCons(x, p);
      assert ([x] + s)[..|[x] + s| - 1] == [x] + p;
    }
  }

  /** The entries of f at the positions listed in ks. */
  function Image(ks: seq<int>, f: seq<int>): set<int>
    requires forall k :: k in ks ==> 0 <= k < |f|
  {
    set k | k in ks :: f[k]
  }

  /** A map that is one-to-one on a duplicate-free list has as many values
      on it as the list has entries. */
  lemma {:induction false} ImageCard(ks: seq<int>, f: seq<int>)
    requires NoDup(ks) && forall k :: k in ks ==> 0 <= k < |f|
    requires forall a, b :: a in ks && b in ks && f[a] == f[b] ==> a == b
    ensures |Image(ks, f)| == |ks|
  {
    if ks != [] {
      var rest := ks[1..];
      assert forall x :: x in rest ==> x in ks;
      assert ks[0] !in rest;
      ImageCard(rest, f);
      assert ks[0] in ks;
      assert Image(ks, f) == {f[ks[0]]} + Image(rest, f);
    }
  }
}

=== FILE: union_find.dfy ===
/**
 The union-find parent array of the tree builder (`_par_compressed_JSUFD`).

 A cell y is linked when its parent entry is a cell id; cells not yet
 inserted hold the out-of-range sentinel N*M.  Termination of root finding
 rests on a ghost depth that strictly decreases from a linked cell to its
 parent; `RootOf` is the root a cell reaches by following parents.
 */
module UnionFind {
  import opened SeqUtil

  /** y is a cell whose parent entry is itself a cell. */
  predicate Linked(uf: seq<int>, y: int)
  {
    0 <= y < |uf| && 0 <= uf[y] < |uf|
  }

  /** Parents of linked cells are linked, and every non-root step lowers the depth. */
  ghost predicate Ranked(uf: seq<int>, depth: seq<nat>)
  {
    && |depth| == |uf|
    && forall y {:trigger Linked(uf, y)} :: Linked(uf, y) ==>
         0 <= uf[uf[y]] < |uf| && (uf[y] != y ==> depth[uf[y]] < depth[y])
  }

  /** The root reached from y by following parent links. */
  ghost function RootOf(uf: seq<int>, depth: seq<nat>, y: int): (r: int)
    requires Ranked(uf, depth) && Linked(uf, y)
    ensures Linked(uf, r) && uf[r] == r
    decreases depth[y]
  {
    if uf[y] == y then y else RootOf(uf, depth, uf[y])
  }

  /** A root reaches itself. */
  lemma RootOfRoot(uf: seq<int>, depth: seq<nat>, r: int)
    requires Ranked(uf, depth) && Linked(uf, r) && uf[r] == r
    ensures RootOf(uf, depth, r) == r
  {
  }

  /** One grandparent rewrite `uf[p] := uf[uf[p]]` at a non-root p. */
  function SplitAt(uf: seq<int>, p: int): seq<int>
    requires Linked(uf, p) && Linked(uf, uf[p])
  {
    uf[p := uf[uf[p]]]
  }

  /** A grandparent rewrite keeps the array ranked, keeps the linked cells
      and the roots, and leaves the root every cell reaches unchanged. */
  lemma {:induction false} SplitAtKeepsRoot(uf: seq<int>, depth: seq<nat>, p: int, y: int)
    requires Ranked(uf, depth) && Linked(uf, p) && uf[p] != p
    requires Linked(uf, y)
    ensures Ranked(SplitAt(uf, p), depth)
    ensures RootOf(SplitAt(uf, p), depth, y) == RootOf(uf, depth, y)
    decreases depth[y]
  {
    var uf' := SplitAt(uf, p);
    SplitAtRanked(uf, depth, p);
    if y == p {
      var q := uf[p];
      if uf[q] == q {
        assert uf'[p] == q;
        RootOfRoot(uf', depth, q);
      } else {
        SplitAtKeepsRoot(uf, depth, p, uf[q]);
      }
    } else if uf[y] != y {
      SplitAtKeepsRoot(uf, depth, p, uf[y]);
    }
  }

  lemma SplitAtRanked(uf: seq<int>, depth: seq<nat>, p: int)
    requires Ranked(uf, depth) && Linked(uf, p) && uf[p] != p
    ensures Ranked(SplitAt(uf, p), depth)
    ensures forall y :: Linked(SplitAt(uf, p), y) <==> Linked(uf, y)
    ensures forall y :: 0 <= y < |uf| ==> (SplitAt(uf, p)[y] == y <==> uf[y] == y)
  {
    var uf' := SplitAt(uf, p);
    var q := uf[p];
    assert Linked(uf, p) && Linked(uf, q);
    forall y | Linked(uf', y)
      ensures 0 <= uf'[uf'[y]] < |uf'| && (uf'[y] != y ==> depth[uf'[y]] < depth[y])
    {
      assert Linked(uf, y);
      if y != p {
        assert Linked(uf, uf[y]);
      }
    }
  }

  /** The loop of `_find_root_of_JSUFD` from p: while p is not a root, point p
      at its grandparent and move on to its old parent.  Returns the root and
      the rewritten array. */
  function Split(uf: seq<int>, p: int, ghost depth: seq<nat>): (res: (int, seq<int>))
    requires Ranked(uf, depth) && Linked(uf, p)
    ensures res.0 == RootOf(uf, depth, p)
    ensures |res.1| == |uf| && Ranked(res.1, depth)
    ensures forall y :: Linked(res.1, y) <==> Linked(uf, y)
    ensures forall y :: 0 <= y < |uf| ==> (res.1[y] == y <==> uf[y] == y)
    ensures forall y :: 0 <= y < |uf| && !Linked(uf, y) ==> res.1[y] == uf[y]
    ensures forall y {:trigger RootOf(res.1, depth, y)} :: Linked(uf, y) ==>
      RootOf(res.1, depth, y) == RootOf(uf, depth, y)
    decreases depth[p]
  {
    if p == uf[p] then (p, uf)
    else
      var q := uf[p];
      var uf' := SplitAt(uf, p);
      SplitAtRanked(uf, depth, p);
      SplitAtKeepsRoot(uf, depth, p, p);
      assert forall y :: Linked(uf, y) ==> RootOf(uf', depth, y) == RootOf(uf, depth, y) by {
        forall y | Linked(uf, y) ensures RootOf(uf', depth, y) == RootOf(uf, depth, y) {
          SplitAtKeepsRoot(uf, depth, p, y);
        }
      }
      Split(uf', q, depth)
  }

  /** Linking a fresh cell v to itself adds the root v and changes no other root. */
  lemma {:induction false} LinkFreshKeepsRoot(uf: seq<int>, depth: seq<nat>, v: int, y: int)
    requires Ranked(uf, depth) && 0 <= v < |uf| && !Linked(uf, v)
    requires Linked(uf, y)
    ensures Ranked(uf[v := v], depth)
    ensures RootOf(uf[v := v], depth, y) == RootOf(uf, depth, y)
    decreases depth[y]
  {
    LinkFreshRanked(uf, depth, v);
    if uf[y] != y {
      LinkFreshKeepsRoot(uf, depth, v, uf[y]);
    }
  }

  lemma LinkFreshRanked(uf: seq<int>, depth: seq<nat>, v: int)
    requires Ranked(uf, depth) && 0 <= v < |uf| && !Linked(uf, v)
    ensures Ranked(uf[v := v], depth)
    ensures forall y :: Linked(uf[v := v], y) <==> Linked(uf, y) || y == v
  {
    var uf' := uf[v := v];
    forall y | Linked(uf', y)
      ensures 0 <= uf'[uf'[y]] < |uf'| && (uf'[y] != y ==> depth[uf'[y]] < depth[y])
    {
      if y != v {
        assert Linked(uf, y);
        assert Linked(uf, uf[y]);
      }
    }
  }

  /** The depth after every root in a set is pointed at the winner w: w keeps
      its depth and every other cell moves above it. */
  function Shift(depth: seq<nat>, w: int): (d: seq<nat>)
    requires 0 <= w < |depth|
    ensures |d| == |depth| && d[w] == depth[w]
    ensures forall y :: 0 <= y < |depth| && y != w ==> d[y] > depth[w]
  {
    seq(|depth|, y requires 0 <= y < |depth| =>
      if y == w then depth[y] else depth[y] + depth[w] + 1)
  }

  /** Every root in J redirected to the winner w in J; all other links kept. */
  ghost predicate JoinedTo(uf: seq<int>, uf': seq<int>, J: set<int>, w: int)
  {
    && |uf'| == |uf| && w in J
    && (forall r :: r in J ==> 0 <= r < |uf| && Linked(uf, r) && uf[r] == r)
    && (forall y :: 0 <= y < |uf| ==> uf'[y] == if y in J then w else uf[y])
  }

  /** After joining the roots J to w, a cell reaches w when its old root was in
      J, and its old root otherwise. */
  lemma {:induction false} JoinKeepsOtherRoots(uf: seq<int>, uf': seq<int>, depth: seq<nat>,
                                               J: set<int>, w: int, y: int)
    requires Ranked(uf, depth) && JoinedTo(uf, uf', J, w)
    requires Linked(uf, y)
    ensures Ranked(uf', Shift(depth, w)) && Linked(uf', y)
    ensures RootOf(uf', Shift(depth, w), y) ==
      if RootOf(uf, depth, y) in J then w else RootOf(uf, depth, y)
    decreases depth[y]
  {
    JoinRanked(uf, uf', depth, J, w);
    var d' := Shift(depth, w);
    if y in J {
      if y != w {
        RootOfRoot(uf', d', w);
      }
    } else if uf[y] != y {
      JoinKeepsOtherRoots(uf, uf', depth, J, w, uf[y]);
    }
  }

  lemma JoinRanked(uf: seq<int>, uf': seq<int>, depth: seq<nat>, J: set<int>, w: int)
    requires Ranked(uf, depth) && JoinedTo(uf, uf', J, w)
    ensures Ranked(uf', Shift(depth, w))
    ensures forall y :: Linked(uf', y) <==> Linked(uf, y)
  {
    var d' := Shift(depth, w);
    forall y | Linked(uf', y)
      ensures 0 <= uf'[uf'[y]] < |uf'| && (uf'[y] != y ==> d'[uf'[y]] < d'[y])
    {
      assert Linked(uf, y);
      if y !in J {
        assert Linked(uf, uf[y]);
      }
    }
  }

  /** uf' has the same linked cells, the same roots and the same root for
      every cell as uf; cells that are not linked keep their entries. */
  ghost predicate SameForest(uf: seq<int>, uf': seq<int>, depth: seq<nat>)
  {
    && Ranked(uf, depth) && Ranked(uf', depth) && |uf'| == |uf|
    && (forall y :: Linked(uf', y) <==> Linked(uf, y))
    && (forall y :: 0 <= y < |uf| && !Linked(uf, y) ==> uf'[y] == uf[y])
    && (forall y :: 0 <= y < |uf| ==> (uf'[y] == y <==> uf[y] == y))
    && (forall y {:trigger RootOf(uf', depth, y)} :: Linked(uf, y) ==>
          RootOf(uf', depth, y) == RootOf(uf, depth, y))
  }

  lemma SameForestTrans(a: seq<int>, b: seq<int>, c: seq<int>, depth: seq<nat>)
    requires SameForest(a, b, depth) && SameForest(b, c, depth)
    ensures SameForest(a, c, depth)
  {
  }

  lemma SameForestRefl(uf: seq<int>, depth: seq<nat>)
    requires Ranked(uf, depth)
    ensures SameForest(uf, uf, depth)
  {
  }

  /** The root-finding loop rewrites only within one forest. */
  lemma SplitSameForest(uf: seq<int>, p: int, depth: seq<nat>)
    requires Ranked(uf, depth) && Linked(uf, p)
    ensures SameForest(uf, Split(uf, p, depth).1, depth)
  {
  }

  /** The component of the root r: the linked cells whose root is r. */
  ghost function Members(uf: seq<int>, depth: seq<nat>, r: int): set<int>
    requires Ranked(uf, depth)
  {
    set y | 0 <= y < |uf| && Linked(uf, y) && RootOf(uf, depth, y) == r
  }

  /** The union of the components of the roots listed in rs. */
  ghost function MembersOf(uf: seq<int>, depth: seq<nat>, rs: seq<int>): set<int>
    requires Ranked(uf, depth)
  {
    set y | 0 <= y < |uf| && Linked(uf, y) && RootOf(uf, depth, y) in rs
  }

  /** Components of distinct roots are disjoint, so the union of the
      components of a duplicate-free list has the sum of their sizes. */
  lemma {:induction false} MembersOfCard(uf: seq<int>, depth: seq<nat>, rs: seq<int>, sz: seq<int>)
    requires Ranked(uf, depth) && NoDup(rs) && |sz| == |rs|
    requires forall i :: 0 <= i < |rs| ==> sz[i] == |Members(uf, depth, rs[i])|
    ensures |MembersOf(uf, depth, rs)| == Sum(sz)
  {
    if rs != [] {
      var k := |rs| - 1;
      var p := rs[..k];
      assert NoDup(p);
      MembersOfCard(uf, depth, p, sz[..k]);
      assert forall x :: x in rs <==> x in p || x == rs[k];
      assert rs[k] !in p;
      assert MembersOf(uf, depth, rs) == MembersOf(uf, depth, p) + Members(uf, depth, rs[k]);
      assert MembersOf(uf, depth, p) !! Members(uf, depth, rs[k]);
    }
  }

  /** uf' joins the classes of the roots rs and of the fresh cell v under w
      and keeps every other class: what a merge does to classes. */
  ghost predicate MergedFrom(uf: seq<int>, depth: seq<nat>, uf': seq<int>, depth': seq<nat>,
                             v: int, rs: seq<int>, w: int)
  {
    && Ranked(uf, depth) && Ranked(uf', depth') && |uf'| == |uf|
    && 0 <= v < |uf| && !Linked(uf, v) && (w == v || w in rs)
    && (forall y :: Linked(uf', y) <==> Linked(uf, y) || y == v)
    && forall y {:trigger RootOf(uf', depth', y)} :: Linked(uf', y) ==>
         RootOf(uf', depth', y) == if y == v || RootOf(uf, depth, y) in rs then w else RootOf(uf, depth, y)
  }

  /** The winner's class after a merge is the fresh cell and the merged classes. */
  lemma MergedClass(uf: seq<int>, depth: seq<nat>, uf': seq<int>, depth': seq<nat>,
                    v: int, rs: seq<int>, w: int)
    requires MergedFrom(uf, depth, uf', depth', v, rs, w)
    ensures Members(uf', depth', w) == {v} + MembersOf(uf, depth, rs)
    ensures v !in MembersOf(uf, depth, rs)
  {
    forall y | 0 <= y < |uf|
      ensures y in Members(uf', depth', w) <==> y == v || y in MembersOf(uf, depth, rs)
    {
      if Linked(uf', y) {
        assert RootOf(uf', depth', y) == if y == v || RootOf(uf, depth, y) in rs then w else RootOf(uf, depth, y);
      }
      if y != v && Linked(uf, y) && RootOf(uf, depth, y) !in rs {
        assert Linked(uf, RootOf(uf, depth, y));
      }
    }
  }

  /** A class not merged is kept. */
  lemma KeptClass(uf: seq<int>, depth: seq<nat>, uf': seq<int>, depth': seq<nat>,
                  v: int, rs: seq<int>, w: int, r: int)
    requires MergedFrom(uf, depth, uf', depth', v, rs, w)
    requires r != w && r !in rs && r != v
    ensures Members(uf', depth', r) == Members(uf, depth, r)
  {
    forall y | 0 <= y < |uf| ensures y in Members(uf', depth', r) <==> y in Members(uf, depth, r) {
      if Linked(uf', y) {
        assert RootOf(uf', depth', y) == if y == v || RootOf(uf, depth, y) in rs then w else RootOf(uf, depth, y);
      }
    }
  }
}
